=== FILE: README.md ===
# zotero-backup in Dafny

A model of the four scripts of zotero-backup that mirror a Zotero group library and work
on the mirror, with proofs about what they do:

- `consistency-report.py` (module `Consistency`, file `consistency_report.dfy`) scans every
  entry of the mirrored library. It files each defect under the user who created the entry:
  - a missing tag;
  - a malformed line of the extra field;
  - a too-short citation key;
  - a file name without a language marker.

  It then prints one Markdown section per user, in the order the users were first reported.
  The global `log` dictionary is the class `ProblemLog`, whose `LogProblem` updates it in
  place. The pure rules and the report they produce are functions, and lemmas relate the two.
- `extract-bibtex.py` (module `ExtractBibtex`) prints the BibLaTeX of the entries a tag
  selects. Before printing, it moves the `tex.` lines that Better BibTeX keeps in the extra
  field back into the entry as BibLaTeX fields. Both loops are methods proved against the
  functions `Unhacked` and `Extraction`.
- `download.py` (module `Download`) is the incremental downloader. It fetches pages of 100
  items with the version it last saw, records the version the first page reports, and writes
  the items to the library file. The two files are the class `LocalFiles`. The server is the
  sequence of responses it gives to the run's requests. `Sync` is proved to leave exactly
  what the function `Run` describes.
- `download-pdfs.py` (module `DownloadPdfs`) runs two passes. The first collects the keys of
  the items the tag selects. The second downloads every PDF attachment whose parent is among
  them. The download is an oracle: the `i`-th attempt succeeds when `outcomes[i]` holds.

Shared pieces:
- `zotero.dfy`: the decoded item record (`Zotero.Item`).
- `optional.dfy`: Python's `None` as `Option`.
- `text.dfy`: the Python string operations the scripts use: `strip`, `split`, `split(sep, 1)`,
  `in` and `startswith`.

Behaviour the scripts do not have, and which the model does not add:
- The consistency checker has no special case for annotations.
- The file-name rule does not look at the parent item.
- The user is only `createdByUser.name`, with no fallback to a user name. A missing name is
  printed as `None`.
- The file-name message has no space after its colon.
- The downloader does not keep partial results after an error. Any status other than 200 or
  304 ends the run with `exit(1)`, and at that point only the version file may have changed.
  `ErrorAfterFirstPage` states the consequence: the new version is recorded but the library
  file is not written, so the next run asks for changes since a version whose items it never
  saved.

## Model

| member | source | states |
|---|---|---|
| Text.StripSpec | consistency-report.py:30 | `strip()` removes exactly the leading and trailing whitespace; the result is empty iff the line is whitespace only |
| Text.JoinSplit | consistency-report.py:27 | joining the pieces of `split('\n')` gives the text back |
| Text.SplitJoin | extract-bibtex.py:14 | splitting a join of separator-free pieces gives the pieces back |
| Text.SplitOnceSpec | consistency-report.py:31-32 | `split(sep, 1)` gives one part iff `sep` does not occur; otherwise the parts around the first occurrence rebuild the text |
| Consistency.GetUser | consistency-report.py:9-13 | the user is `createdByUser.name` when both keys exist, otherwise none |
| Consistency.LinkTarget | consistency-report.py:18 | the link is `parentItem` when present, otherwise the entry's own key |
| Consistency.ProblemLineParts | consistency-report.py:21-22 | a line opens with the entry's key linked to the detail page of its link target, then holds the message, and closes with the user in parentheses and a blank line |
| Consistency.LogOnlyAppends | consistency-report.py:16-23 | filing keeps the old text as a prefix, appends the line, leaves other users unchanged, and adds a new user after all known ones |
| Consistency.ProblemLog.constructor | consistency-report.py:6 | the log starts empty and well formed |
| Consistency.ProblemLog.LogProblem | consistency-report.py:16-23 | updates the dictionary in place to the report `Log` describes, keeping it well formed |
| Consistency.LogAllAppend | consistency-report.py:42-58 | filing two runs of problems one after the other is filing their concatenation |
| Consistency.LogAllUsers | consistency-report.py:19-23 | filing an entry's problems adds its user at the end, unless already known or nothing was filed |
| Consistency.LogAllText | consistency-report.py:20-23 | filing an entry's problems appends their lines to its user's text and to no one else's |
| Consistency.ClassifySpec | consistency-report.py:30-35 | a line is blank iff whitespace only; malformed iff non-blank with no `:`, kept untrimmed; otherwise a pair of the trimmed texts around its first `:` |
| Consistency.CollectedKeys | consistency-report.py:29-33 | the map holds exactly the keys of the well-formed lines |
| Consistency.CollectedLastWins | consistency-report.py:33 | each key holds the value of the last line setting it: a later duplicate overwrites |
| Consistency.CollectedMalformed | consistency-report.py:34-35 | exactly the malformed lines are reported, once each, in order |
| Consistency.BlankLineIgnored | consistency-report.py:30 | a whitespace-only line anywhere adds nothing and reports nothing |
| Consistency.ParseExtraLine | consistency-report.py:30-35 | one loop pass extends the map or files one problem, as `Next` describes |
| Consistency.ParseExtraField | consistency-report.py:26-36 | returns the parsed map and files one problem per malformed line, in order, never stopping early |
| Consistency.TagRule | consistency-report.py:46-47 | "has no tags" is filed iff the entry has no tags and its biblatex is longer than 3 |
| Consistency.MalformedRule | consistency-report.py:29-35 | a malformed-line problem is filed for a line iff the entry has an extra field with that malformed line |
| Consistency.CitationRule | consistency-report.py:48-53 | a citation-key problem is filed iff there is an extra field whose map has a `Citation Key` shorter than 3 |
| Consistency.CitationRuleByLines | consistency-report.py:50-53 | the citation-key rule fires iff the last `Citation Key` line has a trimmed value shorter than 3 |
| Consistency.NoCitationKeyLine | consistency-report.py:50 | with no `Citation Key` line the rule never fires |
| Consistency.FilenameRule | consistency-report.py:54-58 | a file-name problem is filed iff there is a file name with no `--xx--` marker and no `Snapshot` in file name plus title |
| Consistency.LanguageMarkerFound | consistency-report.py:41 | two dashes, two or more ASCII letters and two dashes are found wherever they stand in the text |
| Consistency.NoDashesNoMarker | consistency-report.py:41 | a text without two dashes in a row has no marker |
| Consistency.FirstSeen | consistency-report.py:60 | the dictionary's key order has no repeats and exactly the reported users |
| Consistency.ReportUsers | consistency-report.py:42-58 | the finished report is well formed and lists users in first-reported order |
| Consistency.ReportText | consistency-report.py:42-58 | under each user the report holds exactly that user's lines, in entry order |
| Consistency.ReportShape | consistency-report.py:42-61 | both of the above for the report the script prints |
| Consistency.CheckTags | consistency-report.py:46-47 | the tag rule files exactly `TagProblems` |
| Consistency.CheckExtra | consistency-report.py:48-53 | the extra field's malformed lines, then the citation-key defect |
| Consistency.CheckFilename | consistency-report.py:54-58 | the file-name rule files exactly `FilenameProblems` |
| Consistency.CheckEntry | consistency-report.py:43-58 | one entry's problems in the order tags, extra lines, citation key, file name |
| Consistency.CheckEntries | consistency-report.py:42-58 | the loop leaves the report `BuildReport` describes |
| Consistency.RenderSectionsAppend | consistency-report.py:60-61 | the printed sections for the keys `a + b` are those for `a` followed by those for `b` |
| Consistency.RenderedInKeyOrder | consistency-report.py:60-61 | the `i`-th key's section is printed after those of all earlier keys and before those of all later ones |
| Consistency.ConsistencyReport | consistency-report.py:39-61 | the printed text renders that report, one section per user in key order |
| ExtractBibtex.DropLastTwo | extract-bibtex.py:13 | `s[:-2]` is `s` without its last two characters, empty for shorter texts |
| ExtractBibtex.UnhackedShape | extract-bibtex.py:13-19 | a result starts with `biblatex[:-2]` and ends with `\n}` |
| ExtractBibtex.ReadTexLineSpec | extract-bibtex.py:15-17 | a line is ignored iff it lacks `tex.`; fails iff its payload has no `": "`; otherwise `tex.` + key + `": "` + value rebuilds it |
| ExtractBibtex.ReadFieldLine | extract-bibtex.py:16-17 | the line `tex.key: value` reads back as that key and value |
| ExtractBibtex.TexFieldsFail | extract-bibtex.py:14-17 | the hack raises iff some `tex.` line has no `": "` |
| ExtractBibtex.UnsplittableLineFails | extract-bibtex.py:17 | one such line makes the whole hack fail |
| ExtractBibtex.NoTexLines | extract-bibtex.py:14-15 | an extra field with no `tex.` line adds no field |
| ExtractBibtex.PlainExtra | extract-bibtex.py:14-19 | with no `tex.` line the result is exactly `biblatex[:-2] + "\n}"` |
| ExtractBibtex.TexFieldsOfPairs | extract-bibtex.py:14-18 | an extra field made of `tex.` lines adds exactly their fields, in order |
| ExtractBibtex.TexFieldsAppend | extract-bibtex.py:14-18 | the fields of lines `a + b` are those of `a` followed by those of `b`, and the hack fails iff either part fails |
| ExtractBibtex.PlainLineIgnored | extract-bibtex.py:15 | a line without `tex.`, wherever it stands among any other lines, adds nothing |
| ExtractBibtex.FieldLineAdds | extract-bibtex.py:15-18 | a line `tex.<key>: <value>`, wherever it stands among any other lines, adds exactly its field between the fields of the lines before and after it |
| ExtractBibtex.UnhackRoundTrip | extract-bibtex.py:12-19 | fields stored as `tex.` lines come back as those BibLaTeX fields, in order, before the closing brace |
| ExtractBibtex.UndoBetterBibtexHack | extract-bibtex.py:12-19 | the loop computes `Unhacked` (a result, or the ValueError) |
| ExtractBibtex.FindTag | extract-bibtex.py:28-32 | the search with `break` finds the keyword iff it is one of the tags |
| ExtractBibtex.ExtractionAppend | extract-bibtex.py:24-39 | the run over `a + b` continues the run over `a` unless that one raised |
| ExtractBibtex.StoppedRun | extract-bibtex.py:36-38 | after an exception the remaining entries change nothing |
| ExtractBibtex.ShortEntryIgnored | extract-bibtex.py:26 | an entry with biblatex of at most 3 characters changes nothing wherever it stands |
| ExtractBibtex.KeywordFilters | extract-bibtex.py:27-35 | a keyword prints what no keyword prints over the tagged entries alone, in input order |
| ExtractBibtex.EmptyKeywordSelectsAll | extract-bibtex.py:27 | an empty keyword selects like none |
| ExtractBibtex.ExtractBibtex | extract-bibtex.py:24-39 | the loop prints and stops as `Extraction` describes |
| Download.ReactSpec | download.py:59-94 | any status but 200 and 304 exits; a 200 with a non-empty list goes on with that list; a 304, an empty body or an empty list stops the download |
| Download.LastRequest | download.py:81-94 | the run ends at the first response that is not a non-empty page |
| Download.RequestsSpec | download.py:79-89 | request `i` asks for offset `100 * i`, limit 100, with the version read before the run |
| Download.LocalFiles.ReadCurrentVersion | download.py:31-38 | the stored version, or 0 when there is no version file |
| Download.LocalFiles.WriteCurrentVersion | download.py:26-28 | replaces the version and leaves the library file |
| Download.LocalFiles.WriteLibrary | download.py:98-100 | replaces the library file and leaves the version |
| Download.LocalFiles.GetBibFromZotero | download.py:41-72 | 200 gives the response body, whatever it holds, and records the version only at offset 0; 304 gives none; anything else exits |
| Download.LocalFiles.Sync | download.py:75-102 | the files, exit code and requests are those `Run` describes |
| Download.GatheredAppend | download.py:90 | the records are the in-order concatenation of the pages |
| Download.GatheredPages | download.py:88-90 | each page before the last request adds at least one record |
| Download.NotModifiedRun | download.py:66-68 | a 304 to the first request costs one request and changes no file |
| Download.RunEffects | download.py:60-100 | the version changes only on a 200 to the first request; the library is written only on exit 0 with records, and then holds all of them |
| Download.ErrorAfterFirstPage | download.py:69-71 | an error after the first page exits 1 with the new version recorded and the library unwritten |
| DownloadPdfs.CollectMatchingKeys | download-pdfs.py:76-87 | the first pass collects the key of each item that is not a child type and carries the tag (or any, with no tag) |
| DownloadPdfs.TargetFilename | download-pdfs.py:101 | the name is the attachment's file name when that is non-empty, otherwise exactly its key with `.pdf`; never empty |
| DownloadPdfs.DownloadSelected | download-pdfs.py:91-104 | the second pass attempts exactly `Attempts` and counts the successful ones |
| DownloadPdfs.DownloadPdfs | download-pdfs.py:76-104 | both passes; the count never exceeds the attempts |
| DownloadPdfs.SuccessesBound | download-pdfs.py:102-104 | `downloaded` is at most the number of attempts |
| DownloadPdfs.AttemptsAppend | download-pdfs.py:93-104 | attempts over `a + b` are those over `a` then over `b` |
| DownloadPdfs.AttemptsSpec | download-pdfs.py:95-101 | each attempt is a selected PDF attachment under its target name, and each one is attempted |
| DownloadPdfs.TwoPassSelection | download-pdfs.py:77-100 | an attachment is downloaded iff it is a PDF with a parent key that some matching item anywhere in the library has |
| DownloadPdfs.ChildItemsNeverMatch | download-pdfs.py:80-81 | attachments, notes and annotations never enter the matching set |
| DownloadPdfs.SameItemsSameKeys | download-pdfs.py:77-87 | the matching set does not depend on the order of the items |
| DownloadPdfs.AttemptsPermutation | download-pdfs.py:93-104 | reordering the items reorders the attempts and changes nothing else |
| DownloadPdfs.ReorderedAttempts | download-pdfs.py:77-104 | a child before its parent is downloaded just as one after it |

## Left out

- HTTP is not modelled: requests, headers, authorisation, URLs and `download_pdf`'s body. Page responses and download results are inputs.
- Environment variables, command-line arguments, the usage message and `os.makedirs` are not modelled; the tag and keyword are parameters.
- Reading and writing files is not modelled beyond the two `LocalFiles` fields. The output directory and paths of the PDFs are not modelled.
- JSON decoding and `json.dumps(..., sort_keys=True)` are not modelled. Entries are decoded records, and tag, filename and title values are strings.
- Logging and `print` are left out; printed text is a returned string.
- The `--[a-zA-Z]{2,}--` regular expression is the predicate `HasLanguageMarker`, not a regular-expression engine.
- `strip()` uses Python's whitespace set; other Unicode behaviour is not modelled.
- `int()` failing on a corrupt version file is not modelled: the code does not catch it.
- The server's `Last-Modified-Version` header is modelled as an integer, not text.
- Download.LocalFiles.Sync: requires that some response ends the run, because a server that never does makes the script loop forever.
- ExtractBibtex.ExtractBibtex: the `KeyError` for a selected entry without an extra field and the `ValueError` for a `tex.` line without `": "` are an outcome that stops the run, not a precondition. This is what the script does: it prints up to that entry and stops.
- DownloadPdfs.DownloadSelected: requires exactly one outcome per attempt, since outcomes stand for the downloads.

=== FILE: consistency_report.dfy ===
/**
 * The consistency checker: it scans every entry of the mirrored library, files each
 * defect it finds under the user who created the entry, and prints one Markdown
 * section per user, in the order the users were first reported.
 */
module Consistency {
  import opened Optional
  import opened Text
  import opened Zotero

  // ---------------------------------------------------------------------------
  // Users, links and report lines
  // ---------------------------------------------------------------------------

  /** The user a problem is filed under: a name, or Python's `None`. */
  type User = Option<string>

  /** `meta.createdByUser.name` when both keys exist, otherwise no user. */
  function GetUser(e: Item): (u: User)
    ensures u.Some? <==> e.createdByUser.Some? && e.createdByUser.value.name.Some?
    ensures u.Some? ==> u == e.createdByUser.value.name
  {
    match e.createdByUser
    case Some(info) => info.name
    case None => None
  }

  /** How a user is written into the report: an f-string prints a missing user as `None`. */
  function UserLabel(u: User): string {
    u.GetOr("None")
  }

  const ItemsUrl := "https://www.zotero.org/groups/2480461/ag-gipp/items/"

  /** The record a problem links to: the parent of a child item, otherwise the item itself. */
  function LinkTarget(e: Item): (link: string)
    ensures e.parentItem.Some? ==> link == e.parentItem.value
    ensures e.parentItem.None? ==> link == e.key
  {
    e.parentItem.GetOr(e.key)
  }

  /** The Markdown line filed for one problem of one entry. */
  function ProblemLine(e: Item, msg: string): string {
    "[" + e.key + "](" + ItemsUrl + LinkTarget(e) + "/item-details) " + msg + " (" + UserLabel(GetUser(e)) + ")\n\n"
  }

  /**
   * A line opens with the entry's key linked to the detail page of its link target (the
   * parent record for a child item), then carries the message, and closes with the user in
   * parentheses and a blank line.
   */
  lemma ProblemLineParts(e: Item, msg: string)
    ensures var line := ProblemLine(e, msg);
      var head := "[" + e.key + "](" + ItemsUrl + LinkTarget(e) + "/item-details) ";
      var tail := " (" + UserLabel(GetUser(e)) + ")\n\n";
      && StartsWith(line, head)
      && OccursAt(line, msg, |head|)
      && |line| == |head| + |msg| + |tail| && line[|head| + |msg|..] == tail
  {
    var head := "[" + e.key + "](" + ItemsUrl + LinkTarget(e) + "/item-details) ";
    var tail := " (" + UserLabel(GetUser(e)) + ")\n\n";
    var line := ProblemLine(e, msg);
    assert line == head + msg + tail;
    assert (head + msg + tail)[..|head|] == head;
    assert (head + msg + tail)[|head|..|head| + |msg|] == msg;
    assert (head + msg + tail)[|head| + |msg|..] == tail;
  }

  // ---------------------------------------------------------------------------
  // The report: an insertion-ordered dictionary from user to accumulated text
  // ---------------------------------------------------------------------------

  /** The `log` dictionary: its keys in insertion order, and the text under each key. */
  datatype Report = Report(users: seq<User>, text: map<User, string>)

  const EmptyReport := Report([], map[])

  predicate Distinct<T(==)>(s: seq<T>) {
    forall i, j :: 0 <= i < j < |s| ==> s[i] != s[j]
  }

  /** The key order lists each key of the dictionary exactly once. */
  ghost predicate WellFormed(r: Report) {
    (forall u :: u in r.text <==> u in r.users) && Distinct(r.users)
  }

  /** `log.get(u, '')` */
  function TextOf(r: Report, u: User): string {
    if u in r.text then r.text[u] else ""
  }

  /** The report after `log_problem(e, msg)`. */
  function Log(r: Report, e: Item, msg: string): Report {
    var u := GetUser(e);
    Report(if u in r.text then r.users else r.users + [u], r.text[u := TextOf(r, u) + ProblemLine(e, msg)])
  }

  /**
   * Filing a problem only appends to the entry's user's text: the old text stays as a
   * prefix, other users' texts are unchanged, and a new user comes after all known ones.
   */
  lemma LogOnlyAppends(r: Report, e: Item, msg: string)
    requires WellFormed(r)
    ensures var r' := Log(r, e, msg); var u := GetUser(e);
      && WellFormed(r')
      && TextOf(r', u) == TextOf(r, u) + ProblemLine(e, msg)
      && (forall v :: v != u ==> TextOf(r', v) == TextOf(r, v))
      && r'.users == (if u in r.users then r.users else r.users + [u])
  {
  }

  /** The global `log` of the script, updated in place by `log_problem`. */
  class ProblemLog {
    var users: seq<User>
    var text: map<User, string>

    function Contents(): Report
      reads this
    {
      Report(users, text)
    }

    ghost predicate Valid()
      reads this
    {
      WellFormed(Contents())
    }

    constructor ()
      ensures Valid() && Contents() == EmptyReport
    {
      users := [];
      text := map[];
    }

    /** `log_problem(e, msg)` */
    method LogProblem(e: Item, msg: string)
      requires Valid()
      modifies this
      ensures Valid() && Contents() == Log(old(Contents()), e, msg)
    {
      var usr := GetUser(e);
      var s := if usr in text then text[usr] else "";
      s := s + ProblemLine(e, msg);
      if usr !in text {
        users := users + [usr];
      }
      text := text[usr := s];
      LogOnlyAppends(old(Contents()), e, msg);
    }
  }

  // ---------------------------------------------------------------------------
  // The problems the rules report
  // ---------------------------------------------------------------------------

  datatype Problem =
    | NoTags
    | MalformedExtraLine(line: string)
    | ShortCitationKey(citeKey: string)
    | FileNaming(filename: string)

  const ExtraDefectPrefix := "information in extra field not formatted as key:value pair: "
  const CitationKeyField := "Citation Key"

  /** The message text `log_problem` receives for each problem. */
  function Message(p: Problem): string {
    match p
    case NoTags => "has no tags"
    case MalformedExtraLine(line) => ExtraDefectPrefix + line
    case ShortCitationKey(k) => k + " is too short as a citation key."
    case FileNaming(f) => "does not comply with file naming convention:" + f
  }

  /** Problems are filed one after the other, all under the same entry. */
  function LogAll(r: Report, e: Item, ps: seq<Problem>): Report {
    if |ps| == 0 then r else Log(LogAll(r, e, ps[..|ps| - 1]), e, Message(ps[|ps| - 1]))
  }

  /** The lines filed for the problems `ps` of entry `e`, in order. */
  function LinesFor(e: Item, ps: seq<Problem>): string {
    if |ps| == 0 then "" else LinesFor(e, ps[..|ps| - 1]) + ProblemLine(e, Message(ps[|ps| - 1]))
  }

  lemma {:induction false} LogAllAppend(r: Report, e: Item, a: seq<Problem>, b: seq<Problem>)
    ensures LogAll(r, e, a + b) == LogAll(LogAll(r, e, a), e, b)
  {
    if |b| == 0 {
      assert a + b == a;
    } else {
      assert (a + b)[..|a + b| - 1] == a + b[..|b| - 1];
      LogAllAppend(r, e, a, b[..|b| - 1]);
    }
  }

  /**
   * Filing all problems of one entry keeps the report well formed and adds the entry's
   * user after all known users, unless it is known already or nothing was filed.
   */
  lemma {:induction false} LogAllUsers(r: Report, e: Item, ps: seq<Problem>)
    requires WellFormed(r)
    ensures var r' := LogAll(r, e, ps); var u := GetUser(e);
      && WellFormed(r')
      && r'.users == (if |ps| == 0 || u in r.users then r.users else r.users + [u])
  {
    if |ps| > 0 {
      var init := ps[..|ps| - 1];
      LogAllUsers(r, e, init);
      LogOnlyAppends(LogAll(r, e, init), e, Message(ps[|ps| - 1]));
    }
  }

  /**
   * Filing all problems of one entry appends their lines, in order, to that entry's
   * user's text and touches no other user's text.
   */
  lemma {:induction false} LogAllText(r: Report, e: Item, ps: seq<Problem>)
    ensures var r' := LogAll(r, e, ps); var u := GetUser(e);
      && TextOf(r', u) == TextOf(r, u) + LinesFor(e, ps)
      && (forall v :: v != u ==> TextOf(r', v) == TextOf(r, v))
  {
    if |ps| > 0 {
      var init := ps[..|ps| - 1];
      var line := ProblemLine(e, Message(ps[|ps| - 1]));
      LogAllText(r, e, init);
      ConcatAssociative(TextOf(r, GetUser(e)), LinesFor(e, init), line);
    }
  }

  // ---------------------------------------------------------------------------
  // The extra field
  // ---------------------------------------------------------------------------

  /** How `parse_extra_field` reads one line of the extra field. */
  datatype LineKind =
    | Blank                             // whitespace only: skipped
    | Pair(key: string, value: string)  // trimmed text before and after the first `:`
    | Malformed(line: string)           // no `:` at all: reported, untrimmed

  function Classify(line: string): LineKind {
    if |Strip(line)| == 0 then Blank
    else
      match SplitOnce(line, ":")
      case Some((before, after)) => Pair(Strip(before), Strip(after))
      case None => Malformed(line)
  }

  /**
   * A line is blank exactly when it is whitespace only; otherwise it is a pair split at
   * its first `:`, or, when it has no `:`, malformed and kept as it is.
   */
  lemma ClassifySpec(line: string)
    ensures Classify(line).Blank? <==> SpaceBetween(line, 0, |line|)
    ensures Classify(line).Malformed? <==> !SpaceBetween(line, 0, |line|) && ':' !in line
    ensures Classify(line).Malformed? ==> Classify(line).line == line
    ensures forall i :: 0 <= i < |line| && line[i] == ':' && ':' !in line[..i] && !SpaceBetween(line, 0, |line|) ==>
      Classify(line) == Pair(Strip(line[..i]), Strip(line[i + 1..]))
  {
    StripSpec(line);
    SplitOnceSpec(line, ":");
    ContainsChar(line, ':');
    forall i | 0 <= i < |line| && line[i] == ':' && ':' !in line[..i]
      ensures SplitOnce(line, ":") == Some((line[..i], line[i + 1..]))
    {
      SplitOnceAtFirst(line, ':', i);
    }
  }

  function Classified(lines: seq<string>): (kinds: seq<LineKind>)
    ensures |kinds| == |lines| && forall i :: 0 <= i < |lines| ==> kinds[i] == Classify(lines[i])
  {
    seq(|lines|, i requires 0 <= i < |lines| => Classify(lines[i]))
  }

  /** What `parse_extra_field` builds: the key/value map, and the malformed lines it reported. */
  datatype Parsed = Parsed(fields: map<string, string>, malformed: seq<string>)

  /** The lines, read left to right: a pair sets its key, a malformed line is reported. */
  function Collect(kinds: seq<LineKind>): Parsed {
    if |kinds| == 0 then Parsed(map[], []) else Next(Collect(kinds[..|kinds| - 1]), kinds[|kinds| - 1])
  }

  /** One line read: a pair sets its key, a malformed line is reported, a blank one is skipped. */
  function Next(p: Parsed, kind: LineKind): Parsed {
    match kind
    case Blank => p
    case Pair(k, v) => Parsed(p.fields[k := v], p.malformed)
    case Malformed(line) => Parsed(p.fields, p.malformed + [line])
  }

  /** `parse_extra_field` on the lines of the extra field. */
  function ParseExtra(lines: seq<string>): Parsed {
    Collect(Classified(lines))
  }

  /** No later line sets the same key as line `i`. */
  predicate LastSetter(kinds: seq<LineKind>, i: int)
    requires 0 <= i < |kinds| && kinds[i].Pair?
  {
    forall j :: i < j < |kinds| && kinds[j].Pair? ==> kinds[j].key != kinds[i].key
  }

  /** The malformed lines, in order. */
  function MalformedLines(kinds: seq<LineKind>): seq<string> {
    if |kinds| == 0 then []
    else MalformedLines(kinds[..|kinds| - 1]) + (if kinds[|kinds| - 1].Malformed? then [kinds[|kinds| - 1].line] else [])
  }

  /** The map holds exactly the keys of the well-formed lines. */
  lemma {:induction false} CollectedKeys(kinds: seq<LineKind>)
    ensures forall k :: k in Collect(kinds).fields <==> exists i :: 0 <= i < |kinds| && kinds[i].Pair? && kinds[i].key == k
  {
    if |kinds| > 0 {
      var n := |kinds| - 1;
      var init := kinds[..n];
      CollectedKeys(init);
      var m0 := Collect(init).fields;
      assert Collect(kinds) == Next(Collect(init), kinds[n]);
      forall k
        ensures k in Collect(kinds).fields <==> exists i :: 0 <= i < |kinds| && kinds[i].Pair? && kinds[i].key == k
      {
        if k in m0 {
          var i :| 0 <= i < n && init[i].Pair? && init[i].key == k;
          assert kinds[i] == init[i];
        }
        if exists i :: 0 <= i < |kinds| && kinds[i].Pair? && kinds[i].key == k {
          var i :| 0 <= i < |kinds| && kinds[i].Pair? && kinds[i].key == k;
          if i < n {
            assert init[i] == kinds[i];
          }
        }
      }
    }
  }

  /** A key holds the value of the last line that sets it: a later duplicate overwrites an earlier one. */
  lemma {:induction false} CollectedLastWins(kinds: seq<LineKind>)
    ensures var m := Collect(kinds).fields;
      forall i :: 0 <= i < |kinds| && kinds[i].Pair? && LastSetter(kinds, i) ==>
        kinds[i].key in m && m[kinds[i].key] == kinds[i].value
  {
    if |kinds| > 0 {
      var n := |kinds| - 1;
      var init := kinds[..n];
      CollectedLastWins(init);
      assert Collect(kinds) == Next(Collect(init), kinds[n]);
      forall i | 0 <= i < |kinds| && kinds[i].Pair? && LastSetter(kinds, i)
        ensures kinds[i].key in Collect(kinds).fields && Collect(kinds).fields[kinds[i].key] == kinds[i].value
      {
        if i < n {
          assert init[i] == kinds[i];
          assert LastSetter(init, i);
        }
      }
    }
  }

  /** Exactly the malformed lines are reported, once each, in order. */
  lemma {:induction false} CollectedMalformed(kinds: seq<LineKind>)
    ensures Collect(kinds).malformed == MalformedLines(kinds)
  {
    if |kinds| > 0 {
      CollectedMalformed(kinds[..|kinds| - 1]);
    }
  }

  /** A whitespace-only line, wherever it stands, adds nothing and reports nothing. */
  lemma {:induction false} BlankLineIgnored(a: seq<LineKind>, c: seq<LineKind>)
    ensures Collect(a + [Blank] + c) == Collect(a + c)
  {
    if |c| == 0 {
      assert (a + [Blank] + c)[..|a|] == a;
      assert a + c == a;
    } else {
      var c' := c[..|c| - 1];
      BlankLineIgnored(a, c');
      assert (a + [Blank] + c)[..|a + [Blank] + c| - 1] == a + [Blank] + c';
      assert (a + c)[..|a + c| - 1] == a + c';
    }
  }

  // ---------------------------------------------------------------------------
  // The rules
  // ---------------------------------------------------------------------------

  predicate IsAsciiLetter(c: char) {
    ('a' <= c <= 'z') || ('A' <= c <= 'Z')
  }

  /** `s[i..j]` is two dashes, two or more ASCII letters, two dashes. */
  predicate MarkerAt(s: string, i: int, j: int) {
    0 <= i && i + 6 <= j <= |s| && s[i] == '-' && s[i + 1] == '-' && s[j - 2] == '-' && s[j - 1] == '-'
    && forall k :: i + 2 <= k < j - 2 ==> IsAsciiLetter(s[k])
  }

  /** The search `re.compile('--[a-zA-Z]{2,}--').search(s)` succeeds. */
  predicate HasLanguageMarker(s: string) {
    exists i, j | 0 <= i < j <= |s| :: MarkerAt(s, i, j)
  }

  /** Two dashes, two or more ASCII letters and two dashes are found wherever they stand. */
  lemma LanguageMarkerFound(a: string, letters: string, b: string)
    requires |letters| >= 2 && forall k :: 0 <= k < |letters| ==> IsAsciiLetter(letters[k])
    ensures HasLanguageMarker(a + "--" + letters + "--" + b)
  {
    var s := a + "--" + letters + "--" + b;
    var i, j := |a|, |a| + |letters| + 4;
    forall k | i + 2 <= k < j - 2
      ensures IsAsciiLetter(s[k])
    {
      assert s[k] == letters[k - i - 2];
    }
    assert MarkerAt(s, i, j);
  }

  /** Without two dashes in a row there is no marker. */
  lemma NoDashesNoMarker(s: string)
    requires !Contains(s, "--")
    ensures !HasLanguageMarker(s)
  {
    forall i, j | 0 <= i < j <= |s| && MarkerAt(s, i, j)
      ensures false
    {
      assert OccursAt(s, "--", i);
    }
  }

  /** The defect of the tag rule: no tags on an entry with a real biblatex text. */
  function TagProblems(e: Item): seq<Problem> {
    if |e.tags| == 0 && |e.biblatex| > 3 then [NoTags] else []
  }

  /** The defect of the citation-key rule, from the parsed extra field. */
  function CitationProblems(fields: map<string, string>): seq<Problem> {
    if CitationKeyField in fields && |fields[CitationKeyField]| < 3 then [ShortCitationKey(fields[CitationKeyField])] else []
  }

  /** The extra field's malformed lines, then the citation-key defect. */
  function ExtraProblems(e: Item): seq<Problem> {
    if e.extra.None? then []
    else
      var p := ParseExtra(Split(e.extra.value, '\n'));
      AsMalformed(p.malformed) + CitationProblems(p.fields)
  }

  function AsMalformed(lines: seq<string>): (ps: seq<Problem>)
    ensures |ps| == |lines| && forall i :: 0 <= i < |lines| ==> ps[i] == MalformedExtraLine(lines[i])
  {
    if |lines| == 0 then [] else AsMalformed(lines[..|lines| - 1]) + [MalformedExtraLine(lines[|lines| - 1])]
  }

  /** The defect of the file-name rule (`title` defaults to the empty text). */
  function FilenameProblems(e: Item): seq<Problem> {
    match e.filename
    case None => []
    case Some(f) =>
      if !HasLanguageMarker(f) && !Contains(f + e.title.GetOr(""), "Snapshot") then [FileNaming(f)] else []
  }

  /** All defects of one entry in the order they are filed: tags, extra field, citation key, file name. */
  function EntryProblems(e: Item): seq<Problem> {
    TagProblems(e) + ExtraProblems(e) + FilenameProblems(e)
  }

  // Each rule fires exactly under its own condition, independently of the others, so
  // one entry can be reported several times.

  /** "has no tags" is filed exactly for an entry without tags whose biblatex text is longer than 3. */
  lemma TagRule(e: Item)
    ensures NoTags in EntryProblems(e) <==> |e.tags| == 0 && |e.biblatex| > 3
  {
    assert EntryProblems(e) == TagProblems(e) + ExtraProblems(e) + FilenameProblems(e);
  }

  /** A line is reported as malformed exactly when the entry has an extra field holding that malformed line. */
  lemma MalformedRule(e: Item)
    ensures forall line :: MalformedExtraLine(line) in EntryProblems(e) <==>
      e.extra.Some? && Malformed(line) in Classified(Split(e.extra.value, '\n'))
  {
    var t, x, f := TagProblems(e), ExtraProblems(e), FilenameProblems(e);
    assert EntryProblems(e) == t + x + f;
    assert forall p :: p in t ==> p == NoTags;
    assert forall p :: p in f ==> p.FileNaming?;
    MalformedInExtra(e);
  }

  lemma MalformedInExtra(e: Item)
    ensures forall line :: MalformedExtraLine(line) in ExtraProblems(e) <==>
      e.extra.Some? && Malformed(line) in Classified(Split(e.extra.value, '\n'))
  {
    if e.extra.Some? {
      var kinds := Classified(Split(e.extra.value, '\n'));
      var p := Collect(kinds);
      CollectedMalformed(kinds);
      MalformedLinesSpec(kinds);
      AsMalformedMembers(p.malformed);
      var c := CitationProblems(p.fields);
      assert forall q :: q in c ==> q.ShortCitationKey?;
      assert ExtraProblems(e) == AsMalformed(p.malformed) + c;
    }
  }

  lemma AsMalformedMembers(lines: seq<string>)
    ensures forall line :: MalformedExtraLine(line) in AsMalformed(lines) <==> line in lines
  {
    forall line | line in lines
      ensures MalformedExtraLine(line) in AsMalformed(lines)
    {
      var i :| 0 <= i < |lines| && lines[i] == line;
      assert AsMalformed(lines)[i] == MalformedExtraLine(line);
    }
  }

  /**
   * A citation-key problem is filed exactly when the entry has an extra field whose
   * parsed map has a `Citation Key` shorter than 3 characters.
   */
  lemma CitationRule(e: Item)
    ensures forall k :: ShortCitationKey(k) in EntryProblems(e) <==>
      e.extra.Some? && var m := ParseExtra(Split(e.extra.value, '\n')).fields;
      CitationKeyField in m && m[CitationKeyField] == k && |k| < 3
  {
    assert EntryProblems(e) == TagProblems(e) + ExtraProblems(e) + FilenameProblems(e);
  }

  /**
   * A file-name problem is filed exactly for an entry with a file name that has no
   * language marker and where `Snapshot` occurs neither in the file name nor in the title.
   */
  lemma FilenameRule(e: Item)
    ensures forall f :: FileNaming(f) in EntryProblems(e) <==>
      e.filename == Some(f) && !HasLanguageMarker(f) && !Contains(f + e.title.GetOr(""), "Snapshot")
  {
    assert EntryProblems(e) == TagProblems(e) + ExtraProblems(e) + FilenameProblems(e);
  }

  lemma {:induction false} MalformedLinesSpec(kinds: seq<LineKind>)
    ensures forall line :: line in MalformedLines(kinds) <==> Malformed(line) in kinds
  {
    if |kinds| > 0 {
      MalformedLinesSpec(kinds[..|kinds| - 1]);
      assert kinds == kinds[..|kinds| - 1] + [kinds[|kinds| - 1]];
    }
  }

  /**
   * The citation-key rule in terms of the lines: a problem is reported exactly when the
   * last well-formed line with key `Citation Key` has a trimmed value shorter than 3.
   */
  lemma CitationRuleByLines(kinds: seq<LineKind>, i: int)
    requires 0 <= i < |kinds| && kinds[i].Pair? && kinds[i].key == CitationKeyField && LastSetter(kinds, i)
    ensures CitationProblems(Collect(kinds).fields) ==
      (if |kinds[i].value| < 3 then [ShortCitationKey(kinds[i].value)] else [])
  {
    CollectedKeys(kinds);
    CollectedLastWins(kinds);
  }

  /** Without any `Citation Key` line the citation-key rule never fires. */
  lemma NoCitationKeyLine(kinds: seq<LineKind>)
    requires forall i :: 0 <= i < |kinds| && kinds[i].Pair? ==> kinds[i].key != CitationKeyField
    ensures CitationProblems(Collect(kinds).fields) == []
  {
    CollectedKeys(kinds);
    CollectedLastWins(kinds);
  }

  // ---------------------------------------------------------------------------
  // The whole scan
  // ---------------------------------------------------------------------------

  /** Each entry with the problems the rules find in it. */
  type Finding = (Item, seq<Problem>)

  function Findings(entries: seq<Item>): (found: seq<Finding>)
    ensures |found| == |entries|
    ensures forall i :: 0 <= i < |entries| ==> found[i] == (entries[i], EntryProblems(entries[i]))
  {
    seq(|entries|, i requires 0 <= i < |entries| => (entries[i], EntryProblems(entries[i])))
  }

  /** The report after filing the findings in order, starting from `r`. */
  function Scan(r: Report, found: seq<Finding>): Report {
    if |found| == 0 then r
    else
      var last := found[|found| - 1];
      LogAll(Scan(r, found[..|found| - 1]), last.0, last.1)
  }

  lemma ScanStep(r: Report, found: seq<Finding>, i: nat)
    requires i < |found|
    ensures Scan(r, found[..i + 1]) == LogAll(Scan(r, found[..i]), found[i].0, found[i].1)
  {
    assert found[..i + 1][..i] == found[..i];
  }

  /** The report the script builds from `entries`, starting from `r`. */
  function BuildReport(r: Report, entries: seq<Item>): Report {
    Scan(r, Findings(entries))
  }

  /** The users of the entries that have at least one problem, in entry order, with repeats. */
  function Reporters(found: seq<Finding>): seq<User> {
    if |found| == 0 then []
    else
      var last := found[|found| - 1];
      Reporters(found[..|found| - 1]) + (if |last.1| > 0 then [GetUser(last.0)] else [])
  }

  /** `us` without repeats, each element where it first occurs. */
  function FirstSeen(us: seq<User>): (r: seq<User>)
    ensures Distinct(r)
    ensures forall x :: x in r <==> x in us
  {
    if |us| == 0 then []
    else
      var p := FirstSeen(us[..|us| - 1]);
      var x := us[|us| - 1];
      assert forall y :: y in us <==> y in us[..|us| - 1] || y == x;
      if x in p then p else p + [x]
  }

  /** All lines filed for user `u`, in entry order. */
  function UserText(found: seq<Finding>, u: User): string {
    if |found| == 0 then ""
    else
      var last := found[|found| - 1];
      UserText(found[..|found| - 1], u) + (if GetUser(last.0) == u then LinesFor(last.0, last.1) else "")
  }

  /**
   * The finished report lists the users in the order they were first reported, and under
   * each user exactly that user's lines, in entry order.
   */
  lemma ReportShape(found: seq<Finding>)
    ensures var r := Scan(EmptyReport, found);
      && WellFormed(r)
      && r.users == FirstSeen(Reporters(found))
      && forall u :: TextOf(r, u) == UserText(found, u)
  {
    ReportUsers(found);
    forall u
      ensures TextOf(Scan(EmptyReport, found), u) == UserText(found, u)
    {
      ReportText(found, u);
    }
  }

  /** The users of the report are the reporters, each where it first occurs. */
  lemma {:induction false} ReportUsers(found: seq<Finding>)
    ensures var r := Scan(EmptyReport, found);
      WellFormed(r) && r.users == FirstSeen(Reporters(found))
  {
    if |found| > 0 {
      var init := found[..|found| - 1];
      var last := found[|found| - 1];
      ReportUsers(init);
      LogAllUsers(Scan(EmptyReport, init), last.0, last.1);
      var rs := Reporters(init);
      if |last.1| > 0 {
        assert Reporters(found) == rs + [GetUser(last.0)];
        assert (rs + [GetUser(last.0)])[..|rs|] == rs;
      } else {
        assert Reporters(found) == rs;
      }
    }
  }

  /** Under each user the report holds exactly that user's lines, in entry order. */
  lemma {:induction false} ReportText(found: seq<Finding>, u: User)
    ensures TextOf(Scan(EmptyReport, found), u) == UserText(found, u)
  {
    if |found| > 0 {
      var init := found[..|found| - 1];
      var last := found[|found| - 1];
      ReportText(init, u);
      LogAllText(Scan(EmptyReport, init), last.0, last.1);
    }
  }

  /** `parse_extra_field(d, ent)`: builds the map and files one problem per malformed line. */
  method ParseExtraField(d: string, ent: Item, log: ProblemLog) returns (fields: map<string, string>)
    requires log.Valid()
    modifies log
    ensures log.Valid()
    ensures fields == ParseExtra(Split(d, '\n')).fields
    ensures log.Contents() == LogAll(old(log.Contents()), ent, AsMalformed(ParseExtra(Split(d, '\n')).malformed))
  {
    var lines := Split(d, '\n');
    ghost var kinds := Classified(lines);
    ghost var r0 := log.Contents();
    ghost var malformed: seq<string> := [];
    fields := map[];
    var i := 0;
    while i < |lines|
      invariant 0 <= i <= |lines|
      invariant log.Valid()
      invariant Collect(kinds[..i]) == Parsed(fields, malformed)
      invariant log.Contents() == LogAll(r0, ent, AsMalformed(malformed))
    {
      CollectStep(kinds, i);
      fields, malformed := ParseExtraLine(lines[i], ent, log, fields, malformed, r0);
      i := i + 1;
    }
    assert kinds[..i] == kinds;
  }

  /** One pass of the loop of `parse_extra_field`: reads `line` into the map or files it as malformed. */
  method ParseExtraLine(line: string, ent: Item, log: ProblemLog, fields: map<string, string>,
                        ghost malformed: seq<string>, ghost r0: Report)
    returns (fields': map<string, string>, ghost malformed': seq<string>)
    requires log.Valid() && log.Contents() == LogAll(r0, ent, AsMalformed(malformed))
    modifies log
    ensures log.Valid() && log.Contents() == LogAll(r0, ent, AsMalformed(malformed'))
    ensures Parsed(fields', malformed') == Next(Parsed(fields, malformed), Classify(line))
  {
    fields', malformed' := fields, malformed;
    var kind := Classify(line);
    match kind
    case Blank =>
    case Pair(key, value) =>
      fields' := fields[key := value];
    case Malformed(text) =>
      LogMalformedStep(log.Contents(), r0, ent, malformed, text);
      log.LogProblem(ent, Message(MalformedExtraLine(text)));
      malformed' := malformed + [text];
  }

  lemma CollectStep(kinds: seq<LineKind>, i: nat)
    requires i < |kinds|
    ensures Collect(kinds[..i + 1]) == Next(Collect(kinds[..i]), kinds[i])
  {
    assert kinds[..i + 1][..i] == kinds[..i];
  }

  /** Filing one more malformed line extends the problems filed for the earlier ones. */
  lemma LogMalformedStep(r: Report, r0: Report, e: Item, malformed: seq<string>, line: string)
    requires r == LogAll(r0, e, AsMalformed(malformed))
    ensures LogAll(r0, e, AsMalformed(malformed + [line])) == Log(r, e, Message(MalformedExtraLine(line)))
  {
    assert (malformed + [line])[..|malformed|] == malformed;
  }

  /** The tag rule (line 46 of the script). */
  method CheckTags(e: Item, log: ProblemLog)
    requires log.Valid()
    modifies log
    ensures log.Valid() && log.Contents() == LogAll(old(log.Contents()), e, TagProblems(e))
  {
    if |e.tags| == 0 && |e.biblatex| > 3 {
      log.LogProblem(e, Message(NoTags));
    }
  }

  /** The extra field's defects and the citation-key rule. */
  method CheckExtra(e: Item, log: ProblemLog)
    requires log.Valid()
    modifies log
    ensures log.Valid() && log.Contents() == LogAll(old(log.Contents()), e, ExtraProblems(e))
  {
    if e.extra.Some? {
      ghost var r0 := log.Contents();
      ghost var p := ParseExtra(Split(e.extra.value, '\n'));
      var edict := ParseExtraField(e.extra.value, e, log);
      ghost var r1 := log.Contents();
      if CitationKeyField in edict {
        var citeKey := edict[CitationKeyField];
        if |citeKey| < 3 {
          log.LogProblem(e, Message(ShortCitationKey(citeKey)));
        }
      }
      assert log.Contents() == LogAll(r1, e, CitationProblems(p.fields));
      LogAllAppend(r0, e, AsMalformed(p.malformed), CitationProblems(p.fields));
    }
  }

  /** The file-name rule. */
  method CheckFilename(e: Item, log: ProblemLog)
    requires log.Valid()
    modifies log
    ensures log.Valid() && log.Contents() == LogAll(old(log.Contents()), e, FilenameProblems(e))
  {
    if e.filename.Some? {
      var fname := e.filename.value;
      if !HasLanguageMarker(fname) {
        if !Contains(fname + e.title.GetOr(""), "Snapshot") {
          log.LogProblem(e, Message(FileNaming(fname)));
          assert [FileNaming(fname)][..0] == [];
        }
      }
    }
  }

  /** The three rules applied to one entry, in the script's order (the body of its loop). */
  method CheckEntry(e: Item, log: ProblemLog)
    requires log.Valid()
    modifies log
    ensures log.Valid() && log.Contents() == LogAll(old(log.Contents()), e, EntryProblems(e))
  {
    ghost var r0 := log.Contents();
    CheckTags(e, log);
    CheckExtra(e, log);
    LogAllAppend(r0, e, TagProblems(e), ExtraProblems(e));
    CheckFilename(e, log);
    LogAllAppend(r0, e, TagProblems(e) + ExtraProblems(e), FilenameProblems(e));
  }

  /** The script's loop over all entries. */
  method CheckEntries(entries: seq<Item>, log: ProblemLog)
    requires log.Valid()
    modifies log
    ensures log.Valid() && log.Contents() == BuildReport(old(log.Contents()), entries)
  {
    ghost var r0 := log.Contents();
    ghost var found := Findings(entries);
    for i := 0 to |entries|
      invariant log.Valid()
      invariant log.Contents() == Scan(r0, found[..i])
    {
      ScanStep(r0, found, i);
      assert found[i] == (entries[i], EntryProblems(entries[i]));
      CheckEntry(entries[i], log);
    }
    assert found[..|entries|] == found;
  }

  /** The section printed for one user (`print` adds the final newline). */
  function Section(u: User, text: map<User, string>): string
    requires u in text
  {
    "### " + UserLabel(u) + "\n\n" + text[u] + "\n\n" + "\n"
  }

  /** One Markdown section per user, in key order. */
  function RenderSections(users: seq<User>, text: map<User, string>): string
    requires forall u :: u in users ==> u in text
  {
    if |users| == 0 then "" else Section(users[0], text) + RenderSections(users[1..], text)
  }

  /** The output for `a + b` is the output for `a` followed by the output for `b`. */
  lemma {:induction false} RenderSectionsAppend(a: seq<User>, b: seq<User>, text: map<User, string>)
    requires forall u :: u in a + b ==> u in text
    ensures RenderSections(a + b, text) == RenderSections(a, text) + RenderSections(b, text)
  {
    if |a| == 0 {
      assert a + b == b;
    } else {
      assert (a + b)[1..] == a[1..] + b;
      RenderSectionsAppend(a[1..], b, text);
      ConcatAssociative(Section(a[0], text), RenderSections(a[1..], text), RenderSections(b, text));
    }
  }

  /** The `i`-th key's section stands after those of the earlier keys and before those of the later ones. */
  lemma RenderedInKeyOrder(users: seq<User>, text: map<User, string>, i: nat)
    requires i < |users| && forall u :: u in users ==> u in text
    ensures RenderSections(users, text) ==
      RenderSections(users[..i], text) + Section(users[i], text) + RenderSections(users[i + 1..], text)
  {
    assert users == users[..i] + users[i..];
    RenderSectionsAppend(users[..i], users[i..], text);
    assert users[i..][1..] == users[i + 1..];
  }

  /**
   * The whole script: scan all entries into a fresh report and print it.  The printed
   * text is the rendering of the report whose shape `ReportShape` describes.
   */
  method ConsistencyReport(entries: seq<Item>) returns (output: string)
    ensures WellFormed(BuildReport(EmptyReport, entries))
    ensures output == RenderSections(BuildReport(EmptyReport, entries).users, BuildReport(EmptyReport, entries).text)
  {
    var log := new ProblemLog();
    CheckEntries(entries, log);
    ReportShape(Findings(entries));
    output := RenderSections(log.users, log.text);
  }
}

=== FILE: download.dfy ===
/**
 * The mirror downloader: it asks the Zotero web API for the library one page of 100
 * items at a time, passing the version it last saw so that an unchanged library answers
 * 304, records the library version the first page reports, and writes every item it
 * received to the library file.
 *
 * The server is modelled by the responses it gives to the run's requests, in order: the
 * `k`-th request of a run (at offset `100 * k`) is answered by `responses[k]`.
 */
module Download {
  import opened Optional
  import opened Zotero

  const PageSize := 100
  const Ok := 200
  const NotModified := 304

  /** A request for one page: the `If-Modified-Since-Version` header, `start` and `limit`. */
  datatype Request = Request(ifModifiedSinceVersion: int, start: int, limit: int)

  /**
   * A response: its status, its `Last-Modified-Version` header and its body, where `None`
   * stands for an empty body (Python treats it as false) and `Some` for a JSON list.
   */
  datatype Response = Response(status: int, lastModifiedVersion: int, body: Option<seq<Item>>)

  /** What the script does after one response. */
  datatype Reaction =
    | NextPage(records: seq<Item>)  // a non-empty page: keep it and ask for the next one
    | Stop                          // 304, an empty body or an empty list: the download is over
    | Exit                          // any other status: `exit(1)`

  function React(r: Response): Reaction {
    if r.status == Ok then
      match r.body
      case Some(records) => if |records| > 0 then NextPage(records) else Stop
      case None => Stop
    else if r.status == NotModified then Stop
    else Exit
  }

  /**
   * Any status other than 200 and 304 exits; a 200 with a non-empty list goes on to the next
   * page with that list; everything else (a 304, or a 200 with an empty body or list) stops.
   */
  lemma ReactSpec(r: Response)
    ensures React(r).Exit? <==> r.status != Ok && r.status != NotModified
    ensures React(r).NextPage? <==> r.status == Ok && r.body.Some? && |r.body.value| > 0
    ensures React(r).NextPage? ==> React(r).records == r.body.value
    ensures React(r).Stop? <==> r.status == NotModified || (r.status == Ok && (r.body.None? || r.body.value == []))
  {
  }

  /** The response ends the run. */
  predicate Ends(r: Response) {
    !React(r).NextPage?
  }

  /** The server eventually ends the run (otherwise the script never stops). */
  predicate Terminates(rs: seq<Response>) {
    exists k :: 0 <= k < |rs| && Ends(rs[k])
  }

  /** The index of the response that ends the run: every earlier one was a non-empty page. */
  function LastRequest(rs: seq<Response>): (n: nat)
    requires Terminates(rs)
    ensures n < |rs| && Ends(rs[n])
    ensures forall k :: 0 <= k < n ==> !Ends(rs[k])
  {
    if Ends(rs[0]) then 0
    else
      var k :| 0 <= k < |rs| && Ends(rs[k]);
      assert Ends(rs[1..][k - 1]);
      1 + LastRequest(rs[1..])
  }

  /** The items of the pages among the responses, in order. */
  function Gathered(rs: seq<Response>): seq<Item> {
    if |rs| == 0 then []
    else
      var last := React(rs[|rs| - 1]);
      Gathered(rs[..|rs| - 1]) + (if last.NextPage? then last.records else [])
  }

  /** The requests of a run that sends `count` of them. */
  function Requests(version: int, count: nat): (reqs: seq<Request>)
    ensures |reqs| == count
  {
    if count == 0 then [] else Requests(version, count - 1) + [Request(version, PageSize * (count - 1), PageSize)]
  }

  // ---------------------------------------------------------------------------
  // The two files
  // ---------------------------------------------------------------------------

  /** The version file (absent, or the number it holds) and the library file. */
  datatype Files = Files(version: Option<int>, library: Option<seq<Item>>)

  /** `_read_current_version`: the stored version, 0 when the file cannot be read. */
  function StoredVersion(f: Files): int {
    f.version.GetOr(0)
  }

  /** The response to the first request (offset 0) records its version when its status is 200. */
  function AfterFirstResponse(f: Files, r: Response): Files {
    if r.status == Ok then f.(version := Some(r.lastModifiedVersion)) else f
  }

  /** Everything a run leaves behind: the files, the exit code and the requests it sent. */
  datatype RunOutcome = RunOutcome(files: Files, exitCode: int, requests: seq<Request>)

  function Run(f: Files, rs: seq<Response>): RunOutcome
    requires Terminates(rs)
  {
    var n := LastRequest(rs);
    var f1 := AfterFirstResponse(f, rs[0]);
    var requests := Requests(StoredVersion(f), n + 1);
    if React(rs[n]).Exit? then RunOutcome(f1, 1, requests)
    else
      var records := Gathered(rs[..n]);
      RunOutcome(if |records| > 0 then f1.(library := Some(records)) else f1, 0, requests)
  }

  /** The local files the script reads and writes. */
  class LocalFiles {
    var version: Option<int>
    var library: Option<seq<Item>>

    function Contents(): Files
      reads this
    {
      Files(version, library)
    }

    constructor(f: Files)
      ensures Contents() == f
    {
      version := f.version;
      library := f.library;
    }

    /** `_read_current_version`. */
    method ReadCurrentVersion() returns (v: int)
      ensures v == StoredVersion(Contents())
      ensures version.Some? ==> v == version.value
      ensures version.None? ==> v == 0
    {
      v := 0;
      if version.Some? {
        v := version.value;
      }
    }

    /** `_write_current_version`: replaces the version file. */
    method WriteCurrentVersion(v: int)
      modifies this
      ensures version == Some(v) && library == old(library)
    {
      version := Some(v);
    }

    /** Writes the items to the library file. */
    method WriteLibrary(records: seq<Item>)
      modifies this
      ensures library == Some(records) && version == old(version)
    {
      library := Some(records);
    }

    /**
     * `get_bib_from_zotero(min_version, offset)` given the server's response: the page's
     * items, or `exit` when the status is neither 200 nor 304.  The first page records the
     * version it reports.
     */
    method GetBibFromZotero(offset: nat, r: Response) returns (body: Option<seq<Item>>, exit: bool)
      modifies this
      ensures exit <==> React(r).Exit?
      ensures !exit ==> (body.Some? && |body.value| > 0 <==> React(r).NextPage?)
      ensures React(r).NextPage? ==> body == Some(React(r).records)
      ensures r.status == Ok ==> body == r.body
      ensures r.status == NotModified ==> body.None?
      ensures Contents() == if offset == 0 then AfterFirstResponse(old(Contents()), r) else old(Contents())
    {
      body := None;
      exit := false;
      if r.status == Ok {
        if offset == 0 {
          WriteCurrentVersion(r.lastModifiedVersion);
        }
        body := r.body;
      } else if r.status == NotModified {
      } else {
        exit := true;
      }
    }

    /**
     * `main`: read the stored version, fetch pages until one ends the download, and write
     * the items when there are any.  `exit(1)` leaves the files as they are at that point.
     */
    method Sync(rs: seq<Response>) returns (exitCode: int, requests: seq<Request>)
      requires Terminates(rs)
      modifies this
      ensures RunOutcome(Contents(), exitCode, requests) == Run(old(Contents()), rs)
    {
      ghost var f0 := Contents();
      ghost var n := LastRequest(rs);
      var minVersion := ReadCurrentVersion();
      var offset: Option<nat> := Some(0);
      var records: seq<Item> := [];
      var k := 0;
      requests := [];
      while offset.Some?
        invariant k <= n + 1
        invariant offset.Some? ==> k <= n && offset.value == PageSize * k && records == Gathered(rs[..k])
        invariant offset.None? ==> k == n + 1 && React(rs[n]).Stop? && records == Gathered(rs[..n])
        invariant requests == Requests(minVersion, k)
        invariant Contents() == if k == 0 then f0 else AfterFirstResponse(f0, rs[0])
        decreases n + 1 - k
      {
        requests := requests + [Request(minVersion, offset.value, PageSize)];
        var body, exit := GetBibFromZotero(offset.value, rs[k]);
        if exit {
          assert Ends(rs[k]);
          return 1, requests;
        }
        GatheredStep(rs, k);
        if body.Some? && |body.value| > 0 {
          offset := Some(offset.value + PageSize);
          records := records + body.value;
        } else {
          assert Ends(rs[k]);
          offset := None;
        }
        k := k + 1;
      }
      if |records| > 0 {
        var _ := ReadCurrentVersion();
        WriteLibrary(records);
      }
      return 0, requests;
    }
  }

  lemma GatheredStep(rs: seq<Response>, k: nat)
    requires k < |rs|
    ensures var r := React(rs[k]);
      Gathered(rs[..k + 1]) == Gathered(rs[..k]) + (if r.NextPage? then r.records else [])
  {
    assert rs[..k + 1][..k] == rs[..k];
  }

  // ---------------------------------------------------------------------------
  // What a run does
  // ---------------------------------------------------------------------------

  /** Request `i` asks for the page at offset `100 * i`, always with the version stored before the run. */
  lemma {:induction false} RequestsSpec(version: int, count: nat)
    ensures forall i :: 0 <= i < count ==> Requests(version, count)[i] == Request(version, PageSize * i, PageSize)
  {
    if count > 0 {
      RequestsSpec(version, count - 1);
    }
  }

  /** The items gathered over `a + b` are those of `a` followed by those of `b`. */
  lemma {:induction false} GatheredAppend(a: seq<Response>, b: seq<Response>)
    ensures Gathered(a + b) == Gathered(a) + Gathered(b)
  {
    if |b| == 0 {
      assert a + b == a;
    } else {
      GatheredAppend(a, b[..|b| - 1]);
      assert (a + b)[..|a + b| - 1] == a + b[..|b| - 1];
    }
  }

  /** Every page before the last request is non-empty, so a run gathers at least one item per page. */
  lemma {:induction false} GatheredPages(rs: seq<Response>)
    requires forall k :: 0 <= k < |rs| ==> React(rs[k]).NextPage?
    ensures |Gathered(rs)| >= |rs|
  {
    if |rs| > 0 {
      GatheredPages(rs[..|rs| - 1]);
    }
  }

  /** An unchanged library (304 to the first request) costs one request and writes nothing. */
  lemma NotModifiedRun(f: Files, rs: seq<Response>)
    requires |rs| > 0 && rs[0].status == NotModified
    ensures Terminates(rs)
    ensures Run(f, rs) == RunOutcome(f, 0, [Request(StoredVersion(f), 0, PageSize)])
  {
    assert Ends(rs[0]);
    assert Gathered(rs[..0]) == [];
  }

  /**
   * The version file changes only on a 200 to the first request, and then holds the
   * version that response reports, whatever happens later in the run.  The library file
   * changes only when the run ends without error and received items, and then holds all
   * of them: the items of every page, in order, at least one per page.
   */
  lemma RunEffects(f: Files, rs: seq<Response>)
    requires Terminates(rs)
    ensures var o := Run(f, rs); var n := LastRequest(rs);
      && o.files.version == (if rs[0].status == Ok then Some(rs[0].lastModifiedVersion) else f.version)
      && (o.files.library != f.library ==> o.exitCode == 0)
      && (o.exitCode == 0 && n > 0 ==> o.files.library == Some(Gathered(rs[..n])))
      && (n == 0 ==> o.files.library == f.library)
  {
    var n := LastRequest(rs);
    GatheredPages(rs[..n]);
    assert Gathered(rs[..0]) == [];
  }

  /**
   * A server error after the first page leaves the new version recorded but the library
   * file unwritten: the next run then asks for changes since a version it never saved.
   */
  lemma ErrorAfterFirstPage(f: Files, rs: seq<Response>)
    requires |rs| >= 2 && rs[0].status == Ok && rs[0].body.Some? && |rs[0].body.value| > 0
    requires rs[1].status != Ok && rs[1].status != NotModified
    ensures Terminates(rs)
    ensures var o := Run(f, rs);
      o.exitCode == 1 && o.files == f.(version := Some(rs[0].lastModifiedVersion)) && |o.requests| == 2
  {
    assert Ends(rs[1]);
    assert !Ends(rs[0]);
  }
}

=== FILE: download_pdfs.dfy ===
/**
 * The PDF downloader: a first pass over the mirrored library collects the keys of the
 * regular items the optional tag selects; a second pass fetches every PDF attachment whose
 * parent is one of them and counts the downloads that succeeded.
 *
 * The download itself is modelled by its outcomes: the `i`-th attempt of the run succeeds
 * exactly when `outcomes[i]` holds.
 */
module DownloadPdfs {
  import opened Optional
  import opened Zotero

  const PdfType := "application/pdf"

  /** Item types that never match the tag filter: they are children, not bibliography items. */
  predicate IsChildType(itemType: string) {
    itemType == "attachment" || itemType == "note" || itemType == "annotation"
  }

  /** An item enters the matching set: not a child type, and carrying the tag (when one is given and non-empty). */
  predicate Matches(e: Item, tag: Option<string>) {
    !IsChildType(e.itemType) && (tag.None? || tag.value == "" || HasTag(e.tags, tag.value))
  }

  /** The keys of the matching items. */
  ghost function MatchingKeys(items: seq<Item>, tag: Option<string>): set<string> {
    set i | 0 <= i < |items| && Matches(items[i], tag) :: items[i].key
  }

  /** The first pass: builds `matching_keys`. */
  method CollectMatchingKeys(items: seq<Item>, tag: Option<string>) returns (keys: set<string>)
    ensures keys == MatchingKeys(items, tag)
    ensures forall k :: k in keys <==> exists i :: 0 <= i < |items| && items[i].key == k && Matches(items[i], tag)
  {
    keys := {};
    for i := 0 to |items|
      invariant keys == MatchingKeys(items[..i], tag)
    {
      assert items[..i + 1][..i] == items[..i];
      var entry := items[i];
      if IsChildType(entry.itemType) {
        assert !Matches(entry, tag);
        continue;
      }
      var tagFound := true;
      if tag.Some? && tag.value != "" {
        tagFound := HasTag(entry.tags, tag.value);
      }
      if tagFound {
        keys := keys + {entry.key};
      }
    }
    assert items[..|items|] == items;
  }

  /** A download the second pass attempts: the attachment's key and the file name to save it under. */
  datatype Attempt = Attempt(key: string, filename: string)

  /** An attachment the second pass downloads: a PDF whose parent is among `keys`. */
  predicate Selected(e: Item, keys: set<string>) {
    e.itemType == "attachment" && e.contentType == Some(PdfType) && e.parentItem.Some? && e.parentItem.value in keys
  }

  /** The attachment's file name when it has a non-empty one, else its key with `.pdf`. */
  function TargetFilename(e: Item): (name: string)
    ensures |name| > 0
    ensures e.filename.Some? && e.filename.value != "" ==> name == e.filename.value
    ensures (e.filename.None? || e.filename.value == "") ==> name == e.key + ".pdf" && name[|name| - 4..] == ".pdf"
  {
    if e.filename.Some? && e.filename.value != "" then e.filename.value else e.key + ".pdf"
  }

  /** The downloads the second pass attempts, in order. */
  function Attempts(items: seq<Item>, keys: set<string>): seq<Attempt> {
    if |items| == 0 then []
    else
      var e := items[|items| - 1];
      Attempts(items[..|items| - 1], keys) + (if Selected(e, keys) then [Attempt(e.key, TargetFilename(e))] else [])
  }

  /** The number of outcomes that succeeded. */
  function Successes(outcomes: seq<bool>): nat {
    if |outcomes| == 0 then 0 else Successes(outcomes[..|outcomes| - 1]) + (if outcomes[|outcomes| - 1] then 1 else 0)
  }

  /** The second pass: the attempts it makes and the value of `downloaded` at the end. */
  method DownloadSelected(items: seq<Item>, keys: set<string>, outcomes: seq<bool>) returns (attempts: seq<Attempt>, downloaded: nat)
    requires |outcomes| == |Attempts(items, keys)|
    ensures attempts == Attempts(items, keys)
    ensures downloaded == Successes(outcomes)
  {
    attempts := [];
    downloaded := 0;
    for i := 0 to |items|
      invariant attempts == Attempts(items[..i], keys)
      invariant |attempts| <= |outcomes|
      invariant downloaded == Successes(outcomes[..|attempts|])
    {
      AttemptsPrefix(items, i + 1, keys);
      assert items[..i + 1][..i] == items[..i];
      var entry := items[i];
      if entry.itemType != "attachment" {
        continue;
      }
      if entry.contentType != Some(PdfType) {
        continue;
      }
      var parentKey := entry.parentItem;
      if parentKey.Some? && parentKey.value in keys {
        var filename := TargetFilename(entry);
        assert outcomes[..|attempts| + 1][..|attempts|] == outcomes[..|attempts|];
        var result := outcomes[|attempts|];
        attempts := attempts + [Attempt(entry.key, filename)];
        if result {
          downloaded := downloaded + 1;
        }
      }
    }
    assert items[..|items|] == items;
    assert outcomes[..|attempts|] == outcomes;
  }

  /** The script's `main` after reading the library: both passes. */
  method DownloadPdfs(items: seq<Item>, tag: Option<string>, outcomes: seq<bool>) returns (attempts: seq<Attempt>, downloaded: nat)
    requires |outcomes| == |Attempts(items, MatchingKeys(items, tag))|
    ensures attempts == Attempts(items, MatchingKeys(items, tag))
    ensures downloaded == Successes(outcomes) <= |attempts|
  {
    var keys := CollectMatchingKeys(items, tag);
    attempts, downloaded := DownloadSelected(items, keys, outcomes);
    SuccessesBound(outcomes);
  }

  // ---------------------------------------------------------------------------
  // Properties of the two passes
  // ---------------------------------------------------------------------------

  /** Attempts over `a + b` are those over `a` followed by those over `b`. */
  lemma {:induction false} AttemptsAppend(a: seq<Item>, b: seq<Item>, keys: set<string>)
    ensures Attempts(a + b, keys) == Attempts(a, keys) + Attempts(b, keys)
  {
    if |b| == 0 {
      assert a + b == a;
    } else {
      AttemptsAppend(a, b[..|b| - 1], keys);
      assert (a + b)[..|a + b| - 1] == a + b[..|b| - 1];
    }
  }

  /** The attempts over a prefix of the library are no more than those over all of it. */
  lemma AttemptsPrefix(items: seq<Item>, i: nat, keys: set<string>)
    requires i <= |items|
    ensures |Attempts(items[..i], keys)| <= |Attempts(items, keys)|
  {
    AttemptsAppend(items[..i], items[i..], keys);
    assert items[..i] + items[i..] == items;
  }

  /** `downloaded` never exceeds the number of attempts. */
  lemma {:induction false} SuccessesBound(outcomes: seq<bool>)
    ensures Successes(outcomes) <= |outcomes|
  {
    if |outcomes| > 0 {
      SuccessesBound(outcomes[..|outcomes| - 1]);
    }
  }

  /**
   * Each attempt is the download of one selected attachment, under its target file name,
   * and each selected attachment is attempted.
   */
  lemma {:induction false} AttemptsSpec(items: seq<Item>, keys: set<string>)
    ensures forall a :: a in Attempts(items, keys) ==>
      exists i :: 0 <= i < |items| && Selected(items[i], keys) && a == Attempt(items[i].key, TargetFilename(items[i]))
    ensures forall i :: 0 <= i < |items| && Selected(items[i], keys) ==>
      Attempt(items[i].key, TargetFilename(items[i])) in Attempts(items, keys)
  {
    if |items| > 0 {
      var init := items[..|items| - 1];
      AttemptsSpec(init, keys);
      assert forall i :: 0 <= i < |init| ==> init[i] == items[i];
    }
  }

  /**
   * The two passes: an attachment is downloaded exactly when it is a PDF and some item
   * anywhere in the library (before or after it) has its parent's key and matches the tag.
   */
  lemma TwoPassSelection(items: seq<Item>, tag: Option<string>, e: Item)
    ensures Selected(e, MatchingKeys(items, tag)) <==>
      && e.itemType == "attachment" && e.contentType == Some(PdfType) && e.parentItem.Some?
      && exists i :: 0 <= i < |items| && items[i].key == e.parentItem.value && Matches(items[i], tag)
  {
    if e.parentItem.Some? && e.parentItem.value in MatchingKeys(items, tag) {
      var i :| 0 <= i < |items| && Matches(items[i], tag) && items[i].key == e.parentItem.value;
    }
  }

  /** Attachments, notes and annotations never enter the matching set. */
  lemma ChildItemsNeverMatch(items: seq<Item>, tag: Option<string>, k: string)
    requires forall i :: 0 <= i < |items| && items[i].key == k ==> IsChildType(items[i].itemType)
    ensures k !in MatchingKeys(items, tag)
  {
  }

  /** The order of the library does not matter: the matching keys are a set of the same items. */
  lemma SameItemsSameKeys(items: seq<Item>, other: seq<Item>, tag: Option<string>)
    requires multiset(items) == multiset(other)
    ensures MatchingKeys(items, tag) == MatchingKeys(other, tag)
  {
    forall k | k in MatchingKeys(items, tag)
      ensures k in MatchingKeys(other, tag)
    {
      var i :| 0 <= i < |items| && Matches(items[i], tag) && items[i].key == k;
      assert items[i] in multiset(other);
      var j :| 0 <= j < |other| && other[j] == items[i];
    }
    forall k | k in MatchingKeys(other, tag)
      ensures k in MatchingKeys(items, tag)
    {
      var j :| 0 <= j < |other| && Matches(other[j], tag) && other[j].key == k;
      assert other[j] in multiset(items);
      var i :| 0 <= i < |items| && items[i] == other[j];
    }
  }

  /**
   * Reordering the library reorders the attempts and changes nothing else: in particular a
   * child listed before its parent is downloaded just as when it comes after.
   */
  lemma {:induction false} ReorderedAttempts(items: seq<Item>, other: seq<Item>, tag: Option<string>)
    requires multiset(items) == multiset(other)
    ensures multiset(Attempts(items, MatchingKeys(items, tag))) == multiset(Attempts(other, MatchingKeys(other, tag)))
  {
    SameItemsSameKeys(items, other, tag);
    AttemptsPermutation(items, other, MatchingKeys(items, tag));
  }

  lemma {:induction false} AttemptsPermutation(items: seq<Item>, other: seq<Item>, keys: set<string>)
    requires multiset(items) == multiset(other)
    ensures multiset(Attempts(items, keys)) == multiset(Attempts(other, keys))
    decreases |items|
  {
    if |items| > 0 {
      var e := items[|items| - 1];
      var init := items[..|items| - 1];
      assert items == init + [e];
      assert e in multiset(other);
      var j :| 0 <= j < |other| && other[j] == e;
      var rest := other[..j] + other[j + 1..];
      RemoveAt(other, j);
      assert multiset(init) == multiset(items) - multiset{e};
      AttemptsPermutation(init, rest, keys);
      AttemptsAround(other, j, keys);
      AttemptsAppend(init, [e], keys);
    } else {
      assert other == [];
    }
  }

  lemma RemoveAt<T>(s: seq<T>, j: nat)
    requires j < |s|
    ensures multiset(s[..j] + s[j + 1..]) == multiset(s) - multiset{s[j]}
  {
    assert s == s[..j] + [s[j]] + s[j + 1..];
  }

  /** The attempts over `s` are those over `s` without its `j`-th item, plus that item's own. */
  lemma AttemptsAround(s: seq<Item>, j: nat, keys: set<string>)
    requires j < |s|
    ensures multiset(Attempts(s, keys)) == multiset(Attempts(s[..j] + s[j + 1..], keys)) + multiset(Attempts([s[j]], keys))
  {
    assert s == s[..j] + [s[j]] + s[j + 1..];
    AttemptsAppend(s[..j], [s[j]], keys);
    AttemptsAppend(s[..j] + [s[j]], s[j + 1..], keys);
    AttemptsAppend(s[..j], s[j + 1..], keys);
  }
}

=== FILE: extract_bibtex.dfy ===
/**
 * The BibLaTeX exporter: it prints the stored BibLaTeX of every entry the optional tag
 * selects, after moving the `tex.` lines that Better BibTeX keeps in the extra field back
 * into the entry as BibLaTeX fields.  The script stops at the first entry it cannot handle
 * (an uncaught exception); what it printed before stays printed.
 */
module ExtractBibtex {
  import opened Optional
  import opened Text
  import opened Zotero

  // ---------------------------------------------------------------------------
  // Undoing the Better BibTeX hack
  // ---------------------------------------------------------------------------

  const TexPrefix := "tex."
  const KeySeparator := ": "

  /** Python's `s[:-2]`: all but the last two characters (nothing when `s` is shorter). */
  function DropLastTwo(s: string): (r: string)
    ensures |s| >= 2 ==> r + s[|s| - 2..] == s
    ensures |s| < 2 ==> r == ""
  {
    if |s| >= 2 then s[..|s| - 2] else ""
  }

  /** How `undo_better_bibtex_hack` reads one line of the extra field. */
  datatype TexLine =
    | Plain                              // not a `tex.` line: ignored
    | Field(key: string, value: string)  // the text after `tex.`, split at its first ": "
    | Unsplittable(line: string)         // a `tex.` line without ": ": unpacking raises ValueError

  function ReadTexLine(line: string): TexLine {
    if !StartsWith(line, TexPrefix) then Plain
    else
      match SplitOnce(line[|TexPrefix|..], KeySeparator)
      case Some((key, value)) => Field(key, value)
      case None => Unsplittable(line)
  }

  /** The BibLaTeX field a `tex.` line turns into. */
  function FieldText(key: string, value: string): string {
    "\n\t" + key + " = {" + value + "},"
  }

  /** The fields the lines add, in order; `None` when one of them cannot be split. */
  function TexFields(lines: seq<string>): Option<string> {
    if |lines| == 0 then Some("") else AddField(TexFields(lines[..|lines| - 1]), lines[|lines| - 1])
  }

  /** The fields so far, extended by what `line` adds. */
  function AddField(fields: Option<string>, line: string): Option<string> {
    match fields
    case None => None
    case Some(t) =>
      match ReadTexLine(line)
      case Plain => Some(t)
      case Field(key, value) => Some(t + FieldText(key, value))
      case Unsplittable(_) => None
  }

  lemma TexFieldsStep(lines: seq<string>, i: nat)
    requires i < |lines|
    ensures TexFields(lines[..i + 1]) == AddField(TexFields(lines[..i]), lines[i])
  {
    assert lines[..i + 1][..i] == lines[..i];
  }

  /** What a line, read as `t`, adds to the fields gathered so far. */
  lemma AddFieldOf(fields: string, line: string, t: TexLine)
    requires t == ReadTexLine(line)
    ensures AddField(Some(fields), line) ==
      match t
      case Plain => Some(fields)
      case Field(key, value) => Some(fields + FieldText(key, value))
      case Unsplittable(_) => None
  {
  }

  /**
   * `undo_better_bibtex_hack(biblatex, extra)`: the entry without its closing `\n}`, the
   * fields, then the closing brace again.  `None` stands for the ValueError.
   */
  function Unhacked(biblatex: string, extra: string): Option<string> {
    match TexFields(Split(extra, '\n'))
    case None => None
    case Some(t) => Some(DropLastTwo(biblatex) + t + "\n}")
  }

  /** Whenever the hack succeeds, its result starts with `biblatex[:-2]` and ends with `\n}`. */
  lemma UnhackedShape(biblatex: string, extra: string)
    ensures var r := Unhacked(biblatex, extra);
      r.Some? ==> DropLastTwo(biblatex) <= r.value && |r.value| >= 2 && r.value[|r.value| - 2..] == "\n}"
  {
  }

  /** A line is ignored exactly when it lacks the prefix, and fails exactly when it has no ": " after it. */
  lemma ReadTexLineSpec(line: string)
    ensures ReadTexLine(line).Plain? <==> !StartsWith(line, TexPrefix)
    ensures ReadTexLine(line).Unsplittable? <==>
      StartsWith(line, TexPrefix) && !Contains(line[|TexPrefix|..], KeySeparator)
    ensures ReadTexLine(line).Field? ==>
      line == TexPrefix + ReadTexLine(line).key + KeySeparator + ReadTexLine(line).value
  {
    if StartsWith(line, TexPrefix) {
      var payload := line[|TexPrefix|..];
      SplitOnceSpec(payload, KeySeparator);
      assert line == TexPrefix + payload;
    }
  }

  /** The line `tex.<key>: <value>` gives back that key and value, when the key has no ": ". */
  lemma ReadFieldLine(key: string, value: string)
    requires !Contains(key, KeySeparator)
    ensures ReadTexLine(TexPrefix + key + KeySeparator + value) == Field(key, value)
  {
    var line := TexPrefix + key + KeySeparator + value;
    var payload := key + KeySeparator + value;
    assert line[|TexPrefix|..] == payload;
    assert OccursAt(payload, KeySeparator, |key|);
    forall k | 0 <= k < |key|
      ensures !OccursAt(payload, KeySeparator, k)
    {
      if k + 2 <= |key| {
        assert !OccursAt(key, KeySeparator, k);
        assert payload[k..k + 2] == key[k..k + 2];
      } else {
        assert payload[k..k + 2][1] == payload[|key|] == ':';
      }
    }
    SplitOnceAt(payload, KeySeparator, |key|);
    assert payload[..|key|] == key && payload[|key| + 2..] == value;
  }

  /** The hack fails exactly when some line of the extra field cannot be split. */
  lemma {:induction false} TexFieldsFail(lines: seq<string>)
    ensures TexFields(lines).None? <==> exists i :: 0 <= i < |lines| && ReadTexLine(lines[i]).Unsplittable?
  {
    if |lines| > 0 {
      var init := lines[..|lines| - 1];
      TexFieldsFail(init);
      assert forall i :: 0 <= i < |init| ==> init[i] == lines[i];
    }
  }

  /**
   * The fields of `a + b` are those of `a` followed by those of `b`; the hack fails when
   * either part fails.
   */
  lemma {:induction false} TexFieldsAppend(a: seq<string>, b: seq<string>)
    ensures TexFields(a + b) ==
      if TexFields(a).None? || TexFields(b).None? then None else Some(TexFields(a).value + TexFields(b).value)
  {
    if |b| == 0 {
      assert a + b == a;
      if TexFields(a).Some? {
        assert TexFields(a).value + "" == TexFields(a).value;
      }
    } else {
      var b' := b[..|b| - 1];
      var line := b[|b| - 1];
      TexFieldsAppend(a, b');
      assert (a + b)[..|a + b| - 1] == a + b';
      assert (a + b)[|a + b| - 1] == line;
      if TexFields(a).Some? && TexFields(b').Some? {
        var x, y := TexFields(a).value, TexFields(b').value;
        match ReadTexLine(line)
        case Plain =>
        case Field(key, value) =>
          ConcatAssociative(x, y, FieldText(key, value));
        case Unsplittable(_) =>
      }
    }
  }

  /** A line without `tex.`, wherever it stands among the others, adds nothing. */
  lemma PlainLineIgnored(a: seq<string>, line: string, b: seq<string>)
    requires !StartsWith(line, TexPrefix)
    ensures TexFields(a + [line] + b) == TexFields(a + b)
  {
    TexFieldsAppend(a + [line], b);
    TexFieldsAppend(a, [line]);
    TexFieldsAppend(a, b);
    assert [line][..0] == [];
    if TexFields(a).Some? {
      assert TexFields(a).value + "" == TexFields(a).value;
    }
  }

  /**
   * A `tex.` line `tex.<key>: <value>`, wherever it stands among the others, adds exactly
   * its field between the fields of the lines before it and those of the lines after it.
   */
  lemma FieldLineAdds(a: seq<string>, key: string, value: string, b: seq<string>)
    requires !Contains(key, KeySeparator)
    ensures var line := TexPrefix + key + KeySeparator + value;
      TexFields(a + [line] + b) ==
        if TexFields(a).None? || TexFields(b).None? then None
        else Some(TexFields(a).value + FieldText(key, value) + TexFields(b).value)
  {
    var line := TexPrefix + key + KeySeparator + value;
    ReadFieldLine(key, value);
    TexFieldsAppend(a + [line], b);
    TexFieldsAppend(a, [line]);
    assert [line][..0] == [];
    assert TexFields([line]) == Some("" + FieldText(key, value));
    assert "" + FieldText(key, value) == FieldText(key, value);
  }

  /** One unsplittable line makes the whole hack fail. */
  lemma UnsplittableLineFails(lines: seq<string>, i: nat)
    requires i < |lines| && ReadTexLine(lines[i]).Unsplittable?
    ensures TexFields(lines).None?
  {
    TexFieldsFail(lines);
  }

  /** An extra field without `tex.` lines only has the entry's last two characters replaced by `\n}`. */
  lemma {:induction false} NoTexLines(lines: seq<string>)
    requires forall i :: 0 <= i < |lines| ==> !StartsWith(lines[i], TexPrefix)
    ensures TexFields(lines) == Some("")
  {
    if |lines| > 0 {
      NoTexLines(lines[..|lines| - 1]);
    }
  }

  /** A key and value written as a `tex.` line. */
  function TexLineOf(pair: (string, string)): string {
    TexPrefix + pair.0 + KeySeparator + pair.1
  }

  function TexLinesOf(pairs: seq<(string, string)>): (lines: seq<string>)
    ensures |lines| == |pairs| && forall i :: 0 <= i < |pairs| ==> lines[i] == TexLineOf(pairs[i])
  {
    seq(|pairs|, i requires 0 <= i < |pairs| => TexLineOf(pairs[i]))
  }

  /** The BibLaTeX fields for the pairs, in order. */
  function FieldsText(pairs: seq<(string, string)>): string {
    if |pairs| == 0 then "" else FieldsText(pairs[..|pairs| - 1]) + FieldText(pairs[|pairs| - 1].0, pairs[|pairs| - 1].1)
  }

  /** Keys and values the `tex.` line format can carry. */
  predicate Storable(pair: (string, string)) {
    !Contains(pair.0, KeySeparator) && '\n' !in pair.0 && '\n' !in pair.1
  }

  lemma {:induction false} TexFieldsOfPairs(pairs: seq<(string, string)>)
    requires forall i :: 0 <= i < |pairs| ==> Storable(pairs[i])
    ensures TexFields(TexLinesOf(pairs)) == Some(FieldsText(pairs))
  {
    if |pairs| > 0 {
      var init := pairs[..|pairs| - 1];
      TexFieldsOfPairs(init);
      assert TexLinesOf(pairs)[..|pairs| - 1] == TexLinesOf(init);
      var last := pairs[|pairs| - 1];
      ReadFieldLine(last.0, last.1);
    }
  }

  /**
   * Round trip: fields stored as `tex.` lines, one per line of the extra field, come back
   * as exactly those BibLaTeX fields, in order, before the closing brace.
   */
  lemma UnhackRoundTrip(biblatex: string, pairs: seq<(string, string)>)
    requires |pairs| >= 1
    requires forall i :: 0 <= i < |pairs| ==> Storable(pairs[i])
    ensures Unhacked(biblatex, Join(TexLinesOf(pairs), '\n')) == Some(DropLastTwo(biblatex) + FieldsText(pairs) + "\n}")
  {
    var lines := TexLinesOf(pairs);
    TexLinesOneLine(pairs);
    SplitJoin(lines, '\n');
    TexFieldsOfPairs(pairs);
    assert Split(Join(lines, '\n'), '\n') == lines;
  }

  lemma TexLinesOneLine(pairs: seq<(string, string)>)
    requires forall i :: 0 <= i < |pairs| ==> Storable(pairs[i])
    ensures forall i :: 0 <= i < |pairs| ==> '\n' !in TexLinesOf(pairs)[i]
  {
    forall i | 0 <= i < |pairs|
      ensures '\n' !in TexLinesOf(pairs)[i]
    {
      assert TexLinesOf(pairs)[i] == TexPrefix + pairs[i].0 + KeySeparator + pairs[i].1;
    }
  }

  /** An extra field with no `tex.` line leaves the entry as it was, up to its last two characters. */
  lemma PlainExtra(biblatex: string, extra: string)
    requires forall i :: 0 <= i < |Split(extra, '\n')| ==> !StartsWith(Split(extra, '\n')[i], TexPrefix)
    ensures Unhacked(biblatex, extra) == Some(DropLastTwo(biblatex) + "\n}")
  {
    NoTexLines(Split(extra, '\n'));
    assert DropLastTwo(biblatex) + "" == DropLastTwo(biblatex);
  }

  /** `undo_better_bibtex_hack`, with its loop over the lines of the extra field. */
  method UndoBetterBibtexHack(biblatex: string, extra: string) returns (r: Option<string>)
    ensures r == Unhacked(biblatex, extra)
  {
    var lines := Split(extra, '\n');
    var out := DropLastTwo(biblatex);
    ghost var fields := "";
    for i := 0 to |lines|
      invariant TexFields(lines[..i]) == Some(fields)
      invariant out == DropLastTwo(biblatex) + fields
    {
      var line := ReadTexLine(lines[i]);
      TexFieldsStep(lines, i);
      AddFieldOf(fields, lines[i], line);
      match line
      case Plain =>
      case Field(key, value) =>
        ConcatAssociative(DropLastTwo(biblatex), fields, FieldText(key, value));
        out := out + FieldText(key, value);
        fields := fields + FieldText(key, value);
      case Unsplittable(_) =>
        UnsplittableLineFails(lines, i);
        return None;
    }
    assert lines[..|lines|] == lines;
    r := Some(out + "\n}");
  }

  // ---------------------------------------------------------------------------
  // Selecting and printing entries
  // ---------------------------------------------------------------------------

  /**
   * Whether the script prints an entry: its BibLaTeX is longer than three characters, and
   * the keyword argument is absent or empty (Python treats it as false) or is one of its tags.
   */
  predicate Selected(e: Item, keyword: Option<string>) {
    |e.biblatex| > 3 && (keyword.None? || keyword.value == "" || HasTag(e.tags, keyword.value))
  }

  /** The tag search of the script, stopping at the first match. */
  method FindTag(tags: seq<string>, keyword: string) returns (found: bool)
    ensures found <==> HasTag(tags, keyword)
  {
    found := false;
    for i := 0 to |tags|
      invariant keyword !in tags[..i]
    {
      if tags[i] == keyword {
        found := true;
        break;
      }
    }
  }

  /** Why the script stops: the exception an entry raised, with the entry's key. */
  datatype Failure =
    | MissingExtra(key: string)         // a selected entry has no extra field: KeyError
    | UnsplittableTexLine(key: string)  // a `tex.` line without ": ": ValueError

  /** What the script does with one entry. */
  datatype Step = Skip | Emit(text: string) | Fail(failure: Failure)

  function EntryStep(e: Item, keyword: Option<string>): Step {
    if !Selected(e, keyword) then Skip
    else
      match e.extra
      case None => Fail(MissingExtra(e.key))
      case Some(extra) =>
        if extra == "" then Emit(e.biblatex)
        else
          match Unhacked(e.biblatex, extra)
          case None => Fail(UnsplittableTexLine(e.key))
          case Some(text) => Emit(text)
  }

  /** What the script leaves on standard output, and the exception that stopped it, if any. */
  datatype Outcome = Outcome(printed: string, failure: Option<Failure>)

  /** The script over the entries in order; `print` ends each entry with a newline. */
  function Extraction(entries: seq<Item>, keyword: Option<string>): Outcome {
    if |entries| == 0 then Outcome("", None)
    else Continue(Extraction(entries[..|entries| - 1], keyword), EntryStep(entries[|entries| - 1], keyword))
  }

  /** The outcome after one more entry: nothing more happens once the script has stopped. */
  function Continue(o: Outcome, step: Step): Outcome {
    if o.failure.Some? then o
    else
      match step
      case Skip => o
      case Emit(text) => Outcome(o.printed + text + "\n", None)
      case Fail(f) => Outcome(o.printed, Some(f))
  }

  /** The outcome of running one stretch of entries after another. */
  function Then(first: Outcome, second: Outcome): Outcome {
    if first.failure.Some? then first else Outcome(first.printed + second.printed, second.failure)
  }

  lemma ThenContinue(oa: Outcome, ob: Outcome, step: Step)
    ensures Continue(Then(oa, ob), step) == Then(oa, Continue(ob, step))
  {
    if oa.failure.None? && ob.failure.None? && step.Emit? {
      ConcatAssociative(oa.printed + ob.printed, step.text, "\n");
      ConcatAssociative(oa.printed, ob.printed, step.text);
      ConcatAssociative(oa.printed, ob.printed + step.text, "\n");
    }
  }

  /**
   * Running over `a + b` runs over `a` and, unless that stopped the script, continues over
   * `b` after what `a` printed.
   */
  lemma {:induction false} ExtractionAppend(a: seq<Item>, b: seq<Item>, keyword: Option<string>)
    ensures var oa := Extraction(a, keyword); var ob := Extraction(b, keyword);
      Extraction(a + b, keyword) == if oa.failure.Some? then oa else Outcome(oa.printed + ob.printed, ob.failure)
  {
    if |b| > 0 {
      var init := b[..|b| - 1];
      ExtractionAppend(a, init, keyword);
      assert (a + b)[..|a + b| - 1] == a + init;
      assert (a + b)[|a + b| - 1] == b[|b| - 1];
      ThenContinue(Extraction(a, keyword), Extraction(init, keyword), EntryStep(b[|b| - 1], keyword));
    } else {
      assert a + b == a;
      assert Extraction(a, keyword).printed + "" == Extraction(a, keyword).printed;
    }
  }

  lemma ExtractionStep(entries: seq<Item>, i: nat, keyword: Option<string>)
    requires i < |entries|
    ensures Extraction(entries[..i + 1], keyword) == Continue(Extraction(entries[..i], keyword), EntryStep(entries[i], keyword))
  {
    assert entries[..i + 1][..i] == entries[..i];
  }

  /** Once the script has stopped, the remaining entries change nothing. */
  lemma StoppedRun(entries: seq<Item>, i: nat, keyword: Option<string>)
    requires i <= |entries| && Extraction(entries[..i], keyword).failure.Some?
    ensures Extraction(entries, keyword) == Extraction(entries[..i], keyword)
  {
    ExtractionAppend(entries[..i], entries[i..], keyword);
    assert entries[..i] + entries[i..] == entries;
  }

  /** An entry whose BibLaTeX has at most three characters changes nothing, wherever it is. */
  lemma ShortEntryIgnored(a: seq<Item>, e: Item, b: seq<Item>, keyword: Option<string>)
    requires |e.biblatex| <= 3
    ensures Extraction(a + [e] + b, keyword) == Extraction(a + b, keyword)
  {
    ExtractionAppend(a + [e], b, keyword);
    ExtractionAppend(a, [e], keyword);
    ExtractionAppend(a, b, keyword);
    assert [e][..0] == [];
  }

  /** The entries carrying `tag`, in order. */
  function Tagged(entries: seq<Item>, tag: string): (r: seq<Item>)
    ensures forall e :: e in r <==> e in entries && HasTag(e.tags, tag)
  {
    if |entries| == 0 then []
    else
      var last := entries[|entries| - 1];
      Tagged(entries[..|entries| - 1], tag) + (if HasTag(last.tags, tag) then [last] else [])
  }

  /** A non-empty keyword does what running without one over the tagged entries alone does. */
  lemma {:induction false} KeywordFilters(entries: seq<Item>, keyword: string)
    requires keyword != ""
    ensures Extraction(entries, Some(keyword)) == Extraction(Tagged(entries, keyword), None)
  {
    if |entries| > 0 {
      var init := entries[..|entries| - 1];
      var last := entries[|entries| - 1];
      KeywordFilters(init, keyword);
      var t := Tagged(init, keyword);
      assert Extraction(entries, Some(keyword)) == Continue(Extraction(init, Some(keyword)), EntryStep(last, Some(keyword)));
      if HasTag(last.tags, keyword) {
        assert Tagged(entries, keyword) == t + [last];
        assert (t + [last])[..|t|] == t;
        assert EntryStep(last, Some(keyword)) == EntryStep(last, None);
      } else {
        assert Tagged(entries, keyword) == t;
        assert EntryStep(last, Some(keyword)) == Skip;
      }
    }
  }

  /** An empty keyword is falsy: it selects like no keyword at all. */
  lemma {:induction false} EmptyKeywordSelectsAll(entries: seq<Item>)
    ensures Extraction(entries, Some("")) == Extraction(entries, None)
  {
    if |entries| > 0 {
      EmptyKeywordSelectsAll(entries[..|entries| - 1]);
    }
  }

  /** The script's loop over the entries of the library file. */
  method ExtractBibtex(entries: seq<Item>, keyword: Option<string>) returns (printed: string, failure: Option<Failure>)
    ensures Outcome(printed, failure) == Extraction(entries, keyword)
  {
    printed := "";
    failure := None;
    for i := 0 to |entries|
      invariant Extraction(entries[..i], keyword) == Outcome(printed, None)
    {
      ExtractionStep(entries, i, keyword);
      var entry := entries[i];
      var biblatex := entry.biblatex;
      if |biblatex| > 3 {
        var tagFound := true;
        if keyword.Some? && keyword.value != "" {
          tagFound := FindTag(entry.tags, keyword.value);
        }
        if tagFound {
          match entry.extra
          case None =>
            failure := Some(MissingExtra(entry.key));
            StoppedRun(entries, i + 1, keyword);
            return;
          case Some(extra) =>
            if extra != "" {
              var r := UndoBetterBibtexHack(biblatex, extra);
              if r.None? {
                failure := Some(UnsplittableTexLine(entry.key));
                StoppedRun(entries, i + 1, keyword);
                return;
              }
              biblatex := r.value;
            }
            printed := printed + biblatex + "\n";
        }
      }
    }
    assert entries[..|entries|] == entries;
  }
}

=== FILE: optional.dfy ===
/** An optional value: Python's `None` or a present value. */
module Optional {

  datatype Option<+T> = None | Some(value: T) {

    /** The value when present, otherwise `default` (Python's `x or default` for `None`). */
    function GetOr(default: T): T {
      match this
      case Some(v) => v
      case None => default
    }
  }
}

=== FILE: text.dfy ===
/**
 * The handful of Python `str` operations the scripts rely on: `strip()`, `split(sep)`,
 * `split(sep, 1)`, `in` on strings and `startswith`.
 */
module Text {
  import opened Optional

  /** The characters for which Python's `str.isspace()` holds; `strip()` removes exactly these. */
  predicate IsSpace(c: char) {
    ('\t' <= c <= '\r') || ('\U{1C}' <= c <= ' ') || c == '\U{85}' || c == '\U{A0}'
    || c == '\U{1680}' || ('\U{2000}' <= c <= '\U{200A}') || c == '\U{2028}' || c == '\U{2029}'
    || c == '\U{202F}' || c == '\U{205F}' || c == '\U{3000}'
  }

  /** Every character of `s[lo..hi]` is whitespace. */
  predicate SpaceBetween(s: string, lo: int, hi: int)
    requires 0 <= lo <= hi <= |s|
  {
    forall k :: lo <= k < hi ==> IsSpace(s[k])
  }

  /** The index of the first non-whitespace character of `s` at or after `from`, or `|s|`. */
  function SkipSpace(s: string, from: nat): (i: nat)
    requires from <= |s|
    decreases |s| - from
    ensures from <= i <= |s| && SpaceBetween(s, from, i)
    ensures i < |s| ==> !IsSpace(s[i])
  {
    if from < |s| && IsSpace(s[from]) then SkipSpace(s, from + 1) else from
  }

  /** The index just after the last non-whitespace character of `s[lo..hi]`, or `lo`. */
  function SkipSpaceBack(s: string, lo: nat, hi: nat): (j: nat)
    requires lo <= hi <= |s|
    decreases hi
    ensures lo <= j <= hi && SpaceBetween(s, j, hi)
    ensures j > lo ==> !IsSpace(s[j - 1])
  {
    if lo < hi && IsSpace(s[hi - 1]) then SkipSpaceBack(s, lo, hi - 1) else hi
  }

  /** Python's `s.strip()`. */
  function Strip(s: string): string {
    var i := SkipSpace(s, 0);
    s[i..SkipSpaceBack(s, i, |s|)]
  }

  /**
   * `Strip` removes the leading and trailing whitespace and nothing else; its result is
   * empty exactly when `s` is whitespace only.
   */
  lemma StripSpec(s: string)
    ensures var r := Strip(s);
      exists i, j :: 0 <= i <= j <= |s| && r == s[i..j] && SpaceBetween(s, 0, i) && SpaceBetween(s, j, |s|)
    ensures var r := Strip(s); r == [] || (!IsSpace(r[0]) && !IsSpace(r[|r| - 1]))
    ensures Strip(s) == [] <==> SpaceBetween(s, 0, |s|)
  {
    var i := SkipSpace(s, 0);
    var j := SkipSpaceBack(s, i, |s|);
    assert j == i ==> SpaceBetween(s, 0, |s|);
  }

  /** Concatenation regroups freely. */
  lemma ConcatAssociative(a: string, b: string, c: string)
    ensures (a + b) + c == a + (b + c)
  {
  }

  /** Python's `s.split(sep)` for a one-character separator. */
  function Split(s: string, sep: char): (parts: seq<string>)
    ensures |parts| >= 1
    ensures forall i :: 0 <= i < |parts| ==> sep !in parts[i]
  {
    if |s| == 0 then [""]
    else
      var rest := Split(s[1..], sep);
      if s[0] == sep then [""] + rest else [[s[0]] + rest[0]] + rest[1..]
  }

  /** Python's `sep.join(parts)`, the inverse of `Split`. */
  function Join(parts: seq<string>, sep: char): string
    requires |parts| >= 1
  {
    if |parts| == 1 then parts[0] else parts[0] + [sep] + Join(parts[1..], sep)
  }

  /** Splitting loses nothing: joining the pieces gives the text back. */
  lemma {:induction false} JoinSplit(s: string, sep: char)
    ensures Join(Split(s, sep), sep) == s
  {
    if |s| > 0 {
      var rest := Split(s[1..], sep);
      JoinSplit(s[1..], sep);
      if s[0] == sep {
        assert Split(s, sep) == [""] + rest;
      } else if |rest| == 1 {
        assert Split(s, sep) == [[s[0]] + rest[0]];
      } else {
        var parts := Split(s, sep);
        assert parts[1..] == rest[1..];
        assert Join(parts, sep) == [s[0]] + rest[0] + [sep] + Join(rest[1..], sep);
      }
    }
  }

  /** A piece without the separator, followed by more text, is the first piece of the split. */
  lemma {:induction false} SplitPrefix(p: string, t: string, sep: char)
    requires sep !in p
    ensures Split(p + [sep] + t, sep) == [p] + Split(t, sep)
    ensures Split(p, sep) == [p]
  {
    if |p| > 0 {
      SplitPrefix(p[1..], t, sep);
      assert (p + [sep] + t)[1..] == p[1..] + [sep] + t;
      assert [p[0]] + p[1..] == p;
    } else {
      assert p + [sep] + t == [sep] + t;
    }
  }

  /** Splitting undoes joining, when no piece contains the separator. */
  lemma {:induction false} SplitJoin(parts: seq<string>, sep: char)
    requires |parts| >= 1
    requires forall i :: 0 <= i < |parts| ==> sep !in parts[i]
    ensures Split(Join(parts, sep), sep) == parts
  {
    SplitPrefix(parts[0], "", sep);
    if |parts| > 1 {
      SplitJoin(parts[1..], sep);
      SplitPrefix(parts[0], Join(parts[1..], sep), sep);
    }
  }

  /** `pat` occurs in `s` at index `k`. */
  predicate OccursAt(s: string, pat: string, k: int) {
    0 <= k && k + |pat| <= |s| && s[k..k + |pat|] == pat
  }

  /** Python's `pat in s`. */
  predicate Contains(s: string, pat: string) {
    exists k | 0 <= k <= |s| - |pat| :: OccursAt(s, pat, k)
  }

  /** For a one-character pattern, `Contains` is membership. */
  lemma ContainsChar(s: string, c: char)
    ensures Contains(s, [c]) <==> c in s
  {
    if c in s {
      var k :| 0 <= k < |s| && s[k] == c;
      assert OccursAt(s, [c], k);
    }
    forall k | OccursAt(s, [c], k)
      ensures s[k] == c
    {
      assert s[k..k + 1][0] == s[k];
    }
  }

  /** Python's `s.startswith(pat)`. */
  predicate StartsWith(s: string, pat: string) {
    |pat| <= |s| && s[..|pat|] == pat
  }

  /** The first index at or after `from` where `pat` occurs, if any. */
  function FindFrom(s: string, pat: string, from: nat): (r: Option<nat>)
    decreases |s| - from
    ensures r.Some? ==> from <= r.value && OccursAt(s, pat, r.value)
    ensures r.Some? ==> forall k :: from <= k < r.value ==> !OccursAt(s, pat, k)
    ensures r.None? ==> forall k :: from <= k ==> !OccursAt(s, pat, k)
  {
    if from + |pat| > |s| then None
    else if s[from..from + |pat|] == pat then Some(from)
    else FindFrom(s, pat, from + 1)
  }

  /**
   * Python's `s.split(pat, 1)` when it gives two parts: the text before the first
   * occurrence of `pat` and the text after it.  `None` when `pat` does not occur,
   * which is when Python returns a single part.
   */
  function SplitOnce(s: string, pat: string): Option<(string, string)> {
    match FindFrom(s, pat, 0)
    case None => None
    case Some(i) => Some((s[..i], s[i + |pat|..]))
  }

  /**
   * `SplitOnce` fails exactly when `pat` does not occur; otherwise the two parts with
   * `pat` between them give `s` back, and `pat` does not occur earlier.
   */
  lemma SplitOnceSpec(s: string, pat: string)
    ensures var r := SplitOnce(s, pat); r.None? <==> !Contains(s, pat)
    ensures var r := SplitOnce(s, pat); r.Some? ==> r.value.0 + pat + r.value.1 == s
    ensures var r := SplitOnce(s, pat); r.Some? ==> forall k :: 0 <= k < |r.value.0| ==> !OccursAt(s, pat, k)
  {
    match FindFrom(s, pat, 0)
    case None =>
    case Some(i) =>
      assert s == s[..i] + s[i..i + |pat|] + s[i + |pat|..];
  }

  /** Splitting once cuts at the first occurrence of the pattern. */
  lemma SplitOnceAt(s: string, pat: string, i: nat)
    requires OccursAt(s, pat, i)
    requires forall k :: 0 <= k < i ==> !OccursAt(s, pat, k)
    ensures SplitOnce(s, pat) == Some((s[..i], s[i + |pat|..]))
  {
    var r := FindFrom(s, pat, 0);
    assert r.Some?;
  }

  /** Splitting once at a character cuts at the first occurrence of that character. */
  lemma SplitOnceAtFirst(s: string, c: char, i: nat)
    requires i < |s| && s[i] == c && c !in s[..i]
    ensures SplitOnce(s, [c]) == Some((s[..i], s[i + 1..]))
  {
    assert OccursAt(s, [c], i);
    forall j | 0 <= j < i
      ensures s[j] != c
    {
      assert s[..i][j] == s[j];
    }
    var r := FindFrom(s, [c], 0);
    assert r.Some?;
    assert OccursAt(s, [c], r.value) && s[r.value] == s[r.value..r.value + 1][0];
  }
}

=== FILE: zotero.dfy ===
/**
 * The already-decoded JSON record of one item of the Zotero items endpoint, with the
 * fields the four scripts read.  A missing JSON key is `None`.
 */
module Zotero {
  import opened Optional

  /** `meta.createdByUser`: only its `name` is read. */
  datatype CreatedBy = CreatedBy(name: Option<string>)

  datatype Item = Item(
    key: string,                  // data.key
    itemType: string,             // data.itemType
    tags: seq<string>,            // the `tag` field of each element of data.tags, in order
    title: Option<string>,        // data.title
    extra: Option<string>,        // data.extra
    filename: Option<string>,     // data.filename
    parentItem: Option<string>,   // data.parentItem
    contentType: Option<string>,  // data.contentType
    biblatex: string,             // the entry's biblatex text
    createdByUser: Option<CreatedBy>)  // meta.createdByUser

  /** Some tag of the item is exactly `tag`. */
  predicate HasTag(tags: seq<string>, tag: string) {
    tag in tags
  }
}
